=== FILE: README.md ===
# BeyondChats content engine: a Dafny model of the two backend pipelines

This project models the decision logic of the content engine's two batch jobs.

The **harvest pipeline** fills the article collection from the BeyondChats blog:
- it walks the blog listing along its "next" links to the last page;
- it reads that page's number and scans that page and the one before it;
- it turns every listing card into a (link, date) candidate;
- it keeps the five oldest distinct candidates;
- it fetches each one, builds its record and upserts the record by slug.

The **enhancement pipeline** takes the most recent article and researches its title:
- it gathers the first two usable external sources in rank order;
- it has a language model rewrite the article from them;
- it saves the result as a new "(AI Enhanced)" article.

The pre- and post-processing around the model call is modelled too: input caps, fence stripping, trimming, the minimum length and error wrapping.

Every effect is a parameter. Each pure function stands in for one:
- fetching and parsing a listing page: `Listing.PageFetch`;
- `new URL` resolution: `Listing.Resolver`;
- `new Date(...)`: `Candidates.DateParser`;
- fetching an article page: `Harvester.ArticleFetch`;
- the search call: `Enhancement.Search`;
- readability extraction: `Enhancement.Extractor`;
- the language model: `Llm.Generator`.

The collection is a sequence of records in natural order (`Articles.Store`). Every operation returns the new store, so "the store is written only by the final save" can be stated directly.

Modules:
- `Wrappers`: Option and Result.
- `Text`: JavaScript `trim`, `includes`, `substring`, ASCII `toLowerCase`, decimal text.
- `Seqs`: subsequences and prefixes.
- `Slugs`: slug derivation.
- `Articles`: records, the unique-slug store, upsert, insert and latest.
- `Listing`: the pagination walk and page selection.
- `Candidates`: card scanning, deduplication, the stable sort and the top five.
- `Harvester`: record building and the save loop.
- `Llm`: the rewrite step.
- `Enhancement`: the gathering loop and the whole run.

The model follows the code as written:
- **Latest article.** The run looks at the single latest article. If its title already carries "(AI Enhanced)", the run stops with an error. It does not look for the latest article that is not yet enhanced.
- **Relative "next" links.** These resolve against the listing's base URL, not against the page they were found on.
- **Article date.** It is the article page's own `datetime` when that is non-empty. Otherwise it is the date harvested from the listing.
- **Source length.** A source is accepted only when its text is strictly longer than 500 characters.
- **Search results.** Zero results abort the run before any extraction. Fewer than two usable sources abort it with "Found k/2 valid sources".
- **Pagination walk.** The walk has no step limit in the code. It is modelled with a fuel bound.

## Model

| member | source | states |
|---|---|---|
| Listing.FindNext | backend/src/services/beyondChatsScraper.js:36-38 | the anchor chosen is the first whose trimmed, lower-cased text is "next" or that has class `next`; none exactly when no anchor qualifies |
| Listing.ResolveHref | backend/src/services/beyondChatsScraper.js:41-43 | an href starting with "http" is kept as it is; any other href gives exactly the resolver's answer, which stands for `new URL(href, BASE_URL)` and is none when that throws |
| Listing.Step | backend/src/services/beyondChatsScraper.js:32-52 | one hop of the walk: a failed fetch or a page without a "next" anchor leads nowhere |
| Listing.StepFollowsFirstNext | backend/src/services/beyondChatsScraper.js:36-44 | a page whose first "next" anchor has an empty `href` leads nowhere, and otherwise leads to that `href` as `ResolveHref` resolves it |
| Listing.Walk | backend/src/services/beyondChatsScraper.js:26-54 | the last URL is reached from the start by some number of successful steps within the fuel, and unless the fuel ran out no step leads on from it |
| Listing.WalkStopsAtFirstEnd | backend/src/services/beyondChatsScraper.js:30-53 | the walk ends at the first page with no usable next link or with a fetch error: if the k-th page is the first such, the result is that page |
| Listing.FindLastPage | backend/src/services/beyondChatsScraper.js:26-54 | the last URL is the base URL or the resolved next link of some page |
| Listing.FindPageNumber | backend/src/services/beyondChatsScraper.js:56 | `page/(\d+)` fails exactly when no index matches; otherwise the number is the digit run after the first matching index |
| Listing.PagesToScrape | backend/src/services/beyondChatsScraper.js:58-59 | one or two pages, starting with n; two exactly when n > 1, the second being n - 1 |
| Listing.LastPageNumberOfPageUrl | backend/src/services/beyondChatsScraper.js:56-57 | `LastPageNumber` (`match ? parseInt(match[1]) : 1`) reading the page number back from page n's listing URL gives n, page 1's URL included (no match, so the default 1) |
| Listing.PageUrl | backend/src/services/beyondChatsScraper.js:66 | every listing URL starts with the base URL, and only page 1's URL is the base URL itself |
| Listing.DigitRunOfDigits | backend/src/services/beyondChatsScraper.js:56 | `\d+` captures all of a digit string that is followed by a non-digit |
| Candidates.DateString | backend/src/services/beyondChatsScraper.js:81 | the `datetime` attribute when non-empty, else the trimmed text |
| Candidates.CardDate | backend/src/services/beyondChatsScraper.js:75-83 | the epoch when there is no `time` or `.date` element or its date string is empty, else the parsed date string |
| Candidates.ScanCard | backend/src/services/beyondChatsScraper.js:74-85 | a card is skipped exactly when it has no anchor or its href lacks "/blogs/"; it aborts the page exactly when its "/blogs/" href fails to resolve; a yielded candidate has the resolved link and the card's date |
| Candidates.ScanCards | backend/src/services/beyondChatsScraper.js:73-89 | every candidate comes from some card; when no link fails to resolve, every yielding card's candidate is present |
| Candidates.FirstAbort | backend/src/services/beyondChatsScraper.js:73-89 | the index of the first card whose link fails to resolve, or the number of cards when none fails |
| Candidates.ScanCardsUpToAbort | backend/src/services/beyondChatsScraper.js:73-89 | the scan is exactly the candidates yielded by the cards before the first unresolvable link, in document order (`Yields`, a reference definition that ignores aborts) |
| Candidates.ScanPage | backend/src/services/beyondChatsScraper.js:66-89 | a listing page that cannot be fetched or parsed contributes no candidate |
| Candidates.ScanPageUpToAbort | backend/src/services/beyondChatsScraper.js:66-89 | a fetched page contributes what its cards yield before the first unresolvable link, in document order |
| Candidates.CollectCandidates | backend/src/services/beyondChatsScraper.js:64-90 | every collected candidate was found on one of the chosen pages |
| Candidates.CollectCandidatesFrom | backend/src/services/beyondChatsScraper.js:64-90 | a candidate is collected exactly when it is found on one of the chosen pages |
| Candidates.CollectCandidatesAppend | backend/src/services/beyondChatsScraper.js:65-90 | collecting over `a + b` is collecting over `a` followed by collecting over `b`: a failing page does not stop later pages, and pages contribute in order |
| Candidates.Dedup | backend/src/services/beyondChatsScraper.js:93-100 | the kept candidates have pairwise distinct links and the same set of links as the input |
| Candidates.DedupSubseq | backend/src/services/beyondChatsScraper.js:95-99 | deduplication keeps the input's order: the result is a subsequence of the input |
| Candidates.FirstWithLink | backend/src/services/beyondChatsScraper.js:95-98 | a candidate of the list with that link, at an index before which no candidate has that link |
| Candidates.DedupKeepsFirst | backend/src/services/beyondChatsScraper.js:96-98 | each kept candidate is the first candidate of the input with its link |
| Candidates.SortByDate | backend/src/services/beyondChatsScraper.js:101 | the sort returns a permutation of its input |
| Candidates.SortByDateSorted | backend/src/services/beyondChatsScraper.js:101 | the sorted candidates are non-decreasing by date |
| Candidates.SortByDateStable | backend/src/services/beyondChatsScraper.js:101 | the sort is stable: for every date, the candidates of that date keep their order |
| Candidates.SortByDateDistinct | backend/src/services/beyondChatsScraper.js:101 | sorting keeps links pairwise distinct |
| Candidates.SelectOldest | backend/src/services/beyondChatsScraper.js:93-102 | min(5, number of distinct links) candidates, sorted, with distinct links, forming a sub-multiset of the deduplicated list (so, by `DedupKeepsFirst`, each is the first candidate of its link), none younger than any deduplicated candidate left out, and among candidates of the same date the ones kept are the earliest in the deduplicated list |
| Candidates.TopKeepsOrder | backend/src/services/beyondChatsScraper.js:93-102 | the stable sort keeps equal dates in input order, so a prefix of the sorted list that holds a candidate holds every earlier candidate of the same date |
| Slugs.Collapse | backend/src/services/beyondChatsScraper.js:121 | the result holds only `[a-z0-9]` characters and single hyphens, keeps the word characters in order, is empty only for an empty input, and starts with a hyphen exactly when the input starts with another character |
| Slugs.TrimHyphens | backend/src/services/beyondChatsScraper.js:121 | the result is the input less at most its first and its last character; a leading or trailing hyphen is dropped and nothing else is; so "-" gives ""; on a collapsed input the result is a well-formed slug with the same word characters |
| Slugs.Slugify | backend/src/services/beyondChatsScraper.js:121 | the slug holds only `a-z`, `0-9` and single inner hyphens, and exactly the title's lower-cased word characters |
| Slugs.WordRunMaximal | backend/src/services/beyondChatsScraper.js:121 | the word run at the front of a text is a prefix made of `[a-z0-9]` characters that the next character cannot extend |
| Slugs.WordsAreWords | backend/src/services/beyondChatsScraper.js:121 | the words of a text are non-empty runs of `[a-z0-9]` characters |
| Slugs.WordsEmpty | backend/src/services/beyondChatsScraper.js:121 | a text has no words exactly when it has no `[a-z0-9]` character |
| Slugs.CollapseWords | backend/src/services/beyondChatsScraper.js:121 | the collapsed text is the words of the input joined by single hyphens, with one hyphen more before them when the input starts with another character, and one more after them when it has at least one word and ends with another character; a text with no word collapses to at most one hyphen |
| Slugs.SlugifyWords | backend/src/services/beyondChatsScraper.js:121 | the slug is the words of the lower-cased title joined by single hyphens |
| Slugs.SlugifyIdempotent | backend/src/services/beyondChatsScraper.js:121 | slugifying a slug gives it back |
| Slugs.SlugEmptyIff | backend/src/services/beyondChatsScraper.js:121 | the slug is empty exactly when the lower-cased title has no `[a-z0-9]` character |
| Articles.IndexOfSlug | backend/src/services/beyondChatsScraper.js:124 | the result is the position of the first record whose slug is the filter's slug, and there is no result exactly when no record has that slug |
| Articles.Upsert | backend/src/services/beyondChatsScraper.js:123-127 | slugs stay unique; the slug set gains the written slug; the store grows only for a new slug; records with other slugs are neither lost nor added |
| Articles.UpsertWrites | backend/src/services/beyondChatsScraper.js:123-127 | a record with the slug carries every written field, and with unique slugs every such record does; an existing record keeps its references |
| Articles.UpsertSchemaStrict | backend/src/models/article.js:3-12 | the upsert as the schema applies it: same slugs and size as `Upsert`, but no record gains an author it did not already have |
| Articles.SchemaStrictDropsAuthor | backend/src/services/beyondChatsScraper.js:117-127 | saved into an empty store under the schema as written, the harvested author is lost and the record does not carry the written fields; `Upsert` keeps them |
| Articles.UpsertIdempotent | backend/src/services/beyondChatsScraper.js:123-127 | upserting the same fields twice gives the store that upserting once gives |
| Articles.Insert | backend/src/models/article.js:6 | saving a new record succeeds exactly when its slug is not yet stored, then appends it and keeps slugs unique |
| Articles.LatestIndex | backend/src/pipeline/runPipeline.js:21 | the chosen record has the greatest `createdAt`, and every earlier record is strictly older |
| Articles.Latest | backend/src/pipeline/runPipeline.js:21-22 | no article exactly when the store is empty; otherwise a stored article no older than any other |
| Harvester.TrimAll | backend/src/services/beyondChatsScraper.js:116 | every paragraph is trimmed, none lost |
| Harvester.ItemFields | backend/src/services/beyondChatsScraper.js:108-113 | an item is skipped exactly when its page cannot be fetched or has no non-blank `h1`; a saved item has a non-empty title, a well-formed slug and its own link as source URL |
| Harvester.BuildFields | backend/src/services/beyondChatsScraper.js:112-125 | skipped exactly when the trimmed `h1` is missing or empty; otherwise the record has that title, its slug, "Unknown" as author exactly when the trimmed author is missing, empty or "Unknown", the page's `datetime` or else the harvested date, the item's link, the trimmed author itself when it is present and non-empty, "" as content without a container, and otherwise the trimmed paragraphs joined by blank lines |
| Harvester.SaveItem | backend/src/services/beyondChatsScraper.js:107-133 | a skipped or failing item leaves the store as it was; otherwise its fields are upserted |
| Harvester.SaveAll | backend/src/services/beyondChatsScraper.js:107-133 | the loop keeps slugs unique, adds exactly the saved slugs, and keeps every record whose slug it did not save |
| Harvester.SaveAllAppend | backend/src/services/beyondChatsScraper.js:107 | the loop over `a + b` is the loop over `a` followed by the loop over `b` |
| Harvester.SkippedItemIsInert | backend/src/services/beyondChatsScraper.js:107-133 | a failing or untitled item does not stop later items: the result is as if it were absent |
| Harvester.SaveAllRerunAddsNothing | backend/src/services/beyondChatsScraper.js:123-127 | a second run over the same items adds no record |
| Harvester.UniqueSlugsCount | backend/src/models/article.js:6 | with unique slugs, the store has as many records as slugs |
| Harvester.SavedSlugsBound | backend/src/services/beyondChatsScraper.js:107 | the loop saves at most one slug per item |
| Harvester.Harvest | backend/src/services/beyondChatsScraper.js:24-133 | the whole harvest keeps slugs unique, loses no slug, and adds at most five records |
| Llm.CapInputs | backend/src/services/llmService.js:13-15 | the draft is its input's prefix of length min(len, 5000), each research text its input's prefix of length min(len, 4000), and a missing input becomes "" |
| Llm.StripOpeningFence | backend/src/services/llmService.js:42 | a leading "```html" is removed once; other text is kept |
| Llm.StripClosingFence | backend/src/services/llmService.js:42 | a trailing "```" is removed once; other text is kept |
| Llm.CleanReply | backend/src/services/llmService.js:42 | the cleaned reply is trimmed and no longer than the reply |
| Llm.CleanUnwrapsFence | backend/src/services/llmService.js:42 | a fenced reply with white space around a trimmed body cleans to exactly that body |
| Llm.CleanKeepsPlain | backend/src/services/llmService.js:42 | a trimmed reply with no backtick at either end comes back unchanged |
| Llm.Rewrite | backend/src/services/llmService.js:8-52 | a success is a cleaned reply of at least 50 characters; a model error or a short reply fails with "LLM Generation Failed: " before the message |
| Text.Trim | backend/src/services/llmService.js:42 | the result neither starts nor ends with ECMAScript white space |
| Text.TrimSplits | backend/src/services/llmService.js:42 | trimming removes white space at the two ends and nothing else |
| Text.TrimIdempotent | backend/src/services/beyondChatsScraper.js:112 | trimming twice is trimming once |
| Text.Contains | backend/src/pipeline/runPipeline.js:44 | `includes` holds exactly when the text occurs at some index |
| Seqs.Take | backend/src/services/llmService.js:13-15 | `slice(0, n)` and `substring(0, n)` give the prefix of length min(n, len) |
| Text.ParseNatToString | backend/src/services/beyondChatsScraper.js:57 | `parseInt` of the decimal text of n gives n back |
| Enhancement.NonSelf | backend/src/pipeline/runPipeline.js:44 | the kept links are results that do not contain "beyondchats.com" |
| Enhancement.AllUsable | backend/src/pipeline/runPipeline.js:42-59 | every usable source is a non-self result whose extraction returned more than 500 characters |
| Enhancement.GatherFromSources | backend/src/pipeline/runPipeline.js:42-59 | the loop accepts exactly the first two usable sources, in rank order |
| Enhancement.GatherFromTried | backend/src/pipeline/runPipeline.js:42-48 | the links passed to extraction are the non-self results among those the loop looked at, in order |
| Enhancement.GatherFromStops | backend/src/pipeline/runPipeline.js:42-43 | the loop looks at every result unless it accepts two sources, and then the last result looked at is the second source |
| Enhancement.Gather | backend/src/pipeline/runPipeline.js:40-59 | the sources are the first two of the reference definition, each with extracted text over 500 characters |
| Enhancement.GatherTried | backend/src/pipeline/runPipeline.js:42-59 | no self link is passed to extraction; with fewer than two sources all non-self results were tried; with two, nothing after the second was tried |
| Enhancement.GatherFrom | backend/src/pipeline/runPipeline.js:40-59 | the accepted sources only grow, so those found before are kept in front; the loop looks at no more results than it is given, and with two sources already found it looks at none |
| Enhancement.ReferencesHtml | backend/src/pipeline/runPipeline.js:77-83 | the references block cites every used link |
| Enhancement.EnhancedArticle | backend/src/pipeline/runPipeline.js:85-92 | the new article differs from the original: its title carries the marker, its slug extends the original's by "-ai-enhanced-", it keeps the source URL, is dated `now`, has the used links as references and a content that starts with the rewrite and cites every used link |
| Enhancement.Enhance | backend/src/pipeline/runPipeline.js:12-99 | a failed run leaves the store as it was; a successful one appends exactly the reported article; slugs stay unique (that a run passing every guard does succeed is `EnhanceSucceeds`) |
| Enhancement.EnhanceEmptyStore | backend/src/pipeline/runPipeline.js:21-22 | an empty store stops the run with "No articles found in DB." |
| Enhancement.EnhanceStopsOnEnhancedLatest | backend/src/pipeline/runPipeline.js:24-26 | when the latest title carries "(AI Enhanced)" the run stops and saves nothing |
| Enhancement.EnhanceAbortsOnNoResults | backend/src/pipeline/runPipeline.js:34-36 | no search results abort the run and save nothing |
| Enhancement.EnhanceAbortsOnFewSources | backend/src/pipeline/runPipeline.js:61-63 | fewer than two usable sources abort the run with "Found k/2 valid sources." and save nothing |
| Enhancement.EnhanceAbortsOnRewriteFailure | backend/src/pipeline/runPipeline.js:67-71 | a failed rewrite aborts the run with the rewrite's own message and saves nothing |
| Enhancement.EnhanceSucceeds | backend/src/pipeline/runPipeline.js:21-94 | when every guard passes, the rewrite succeeds and the new slug is free, the run saves exactly the enhanced article built from the latest article, the rewrite and the first two usable links |
| Enhancement.EnhanceCanSucceed | backend/src/pipeline/runPipeline.js:21-94 | a concrete run passes every guard and saves: one stored article, two short non-self results extracting to 501 characters each, and a 60-character reply give a successful run and a store of two |
| Enhancement.EnhanceAbortsOnTakenSlug | backend/src/pipeline/runPipeline.js:85-94 | a new slug already stored makes the save fail under the unique index, and nothing is saved |
| Enhancement.EnhanceSuccess | backend/src/pipeline/runPipeline.js:75-94 | a saved article has the latest title plus " (AI Enhanced)", the slug plus "-ai-enhanced-" and the stamp, the original's source URL, the new date, and as references the first two usable links in order; the original stays |
| Enhancement.MarkerInEnhancedTitle | backend/src/pipeline/runPipeline.js:86 | an enhanced title carries the marker the guard looks for |
| Enhancement.EnhanceTwiceStops | backend/src/pipeline/runPipeline.js:21-91 | after a successful run dated later than every stored article, the next run stops at the enhanced article |

## Left out

- Network, database and process effects are not modelled:
  - HTTP requests;
  - JSDOM parsing;
  - MongoDB connect and disconnect and the `readyState` checks;
  - console output;
  - `process.exit`.

  Pages arrive already parsed, as records. The enhancement run always disconnects and exits (`runPipeline.js:100-104`); this has no effect on the store.
- The scraper service (readability extraction) and the search service are oracles. The search returns an empty list on any error; extraction returns `None` when it fails or throws.
- URL resolution (`new URL(href, BASE_URL)`) is an oracle that may fail. A failure while scanning a listing page ends that page's scan and keeps what it had already collected.
- Date parsing is an oracle returning milliseconds. Invalid dates (`NaN`) and their effect on the sort comparator are not modelled. `Date.now()` and `new Date()` are parameters.
- Listing.Walk: the code's walk has no step limit. The model takes a fuel bound and says nothing about a site whose "next" links never end.
- Text.Lower: `toLowerCase` is modelled on ASCII only. This is exact for the "next" test. For slugs it differs only on titles containing U+0130 or U+212A, which lower-case into ASCII letters.
- Lengths count Unicode scalar values; JavaScript counts UTF-16 code units. The caps at 5000 and 4000 characters, the 50-character minimum and the 500-character acceptance differ only for text outside the Basic Multilingual Plane.
- Text.ParseDecimal: reads any digit string exactly; `parseInt` loses precision above 2^53.
- Mongoose's automatic `createdAt` and `updatedAt` timestamps are not modelled. `createdAt` is the value the code writes.
- Articles.Article: every record has a string slug. The schema does not require `slug` (`article.js:6`) and `createArticle` saves the request body as given (`articleController.js:18-22`), so a stored article may have none; if such an article is the latest, the enhancement builds the slug `"undefined-ai-enhanced-<stamp>"` (`runPipeline.js:87`). That path is not modelled.
- Articles.UpsertSchemaStrict: strips only the undeclared `author`. The schema also sets `timestamps: true` (`article.js:11`), under which Mongoose very likely ignores the `createdAt` the harvester writes and stamps an inserted record with the time of the insert; this member does not model that, so its records keep the written date.
- Articles.LatestIndex: the database's choice among articles with equal `createdAt` is unspecified. The model takes the first in natural order.
- The prompt text around the three inputs is fixed wording. It is folded into the `Generator` oracle.
- The frontend, the Express routes, the controller, the error middleware and the workflow runner are not part of this model.

## Findings

| source | as written | input that shows it | evidently intended | confidence | as-written member | corrected member |
|---|---|---|---|---|---|---|
| backend/src/models/article.js:3-12 | the schema declares no `author` path, so strict mode strips the `author` the harvester writes at `beyondChatsScraper.js:117-125` | any harvested item saved into an empty collection: the stored record has no author, not even "Unknown" | the author (or "Unknown") is stored with the article | medium, not executed (depends on Mongoose's default strict mode) | Articles.UpsertSchemaStrict, Articles.SchemaStrictDropsAuthor | Articles.Upsert |

The rest of the model uses the corrected `Articles.Upsert`, which stores the author.

The same schema option `timestamps: true` very likely also replaces the harvested `createdAt` with the insertion time; that is reasoned from the text alone and is not part of either member (see "## Left out").

=== FILE: articles.dfy ===
/** The article collection: records in the collection's natural order, with `slug`
    as the unique key the harvester upserts by. */
module Articles {
  import opened Wrappers

  /** One stored article. A missing `content` is modelled as "", which is what
      every reader of the field substitutes for it. */
  datatype Article = Article(
    title: string,
    slug: string,
    content: string,
    author: Option<string>,
    sourceUrl: Option<string>,
    references: seq<string>,
    createdAt: int)

  type Store = seq<Article>

  /** The fields a harvested article is written with. */
  datatype Fields = Fields(
    title: string,
    slug: string,
    content: string,
    author: string,
    createdAt: int,
    sourceUrl: string)

  /** At most one record per slug: the unique index on `slug`. */
  predicate SlugsUnique(st: Store) {
    forall i, j :: 0 <= i < j < |st| ==> st[i].slug != st[j].slug
  }

  function SlugSet(st: Store): set<string> {
    set a | a in st :: a.slug
  }

  /** The record carries every field the upsert wrote. */
  predicate Carries(a: Article, f: Fields) {
    && a.title == f.title && a.slug == f.slug && a.content == f.content
    && a.author == Some(f.author) && a.createdAt == f.createdAt && a.sourceUrl == Some(f.sourceUrl)
  }

  /** The position of the first record with `slug`, as the filter `{ slug }` finds it. */
  function IndexOfSlug(st: Store, slug: string): (r: Option<nat>)
    ensures r.Some? ==> r.value < |st| && st[r.value].slug == slug
    ensures r.Some? ==> forall k :: 0 <= k < r.value ==> st[k].slug != slug
    ensures r.None? <==> slug !in SlugSet(st)
  {
    if st == [] then None
    else if st[0].slug == slug then Some(0)
    else
      var r := IndexOfSlug(st[1..], slug);
      assert SlugSet(st) == {st[0].slug} + SlugSet(st[1..]) by {
        assert forall a :: a in st <==> a == st[0] || a in st[1..];
      }
      match r
      case None => None
      case Some(i) => Some(i + 1)
  }

  /** The record the upsert leaves for `f`, keeping the references `refs` it had. */
  function Written(f: Fields, refs: seq<string>): (a: Article)
    ensures Carries(a, f) && a.references == refs
  {
    Article(f.title, f.slug, f.content, Some(f.author), Some(f.sourceUrl), refs, f.createdAt)
  }

  /** Replacing a record by one with the same slug keeps the slug set. */
  lemma SlugSetReplace(st: Store, i: nat, a: Article)
    requires i < |st| && st[i].slug == a.slug
    ensures SlugSet(st[i := a]) == SlugSet(st)
  {
    var r := st[i := a];
    forall b | b in r ensures b.slug in SlugSet(st) {
      var k :| 0 <= k < |r| && r[k] == b;
      if k != i { assert st[k] == b; } else { assert st[i] in st; }
    }
    forall b | b in st ensures b.slug in SlugSet(r) {
      var k :| 0 <= k < |st| && st[k] == b;
      if k != i { assert r[k] == b; } else { assert r[i] in r; }
    }
  }

  /** Appending a record adds its slug to the slug set. */
  lemma SlugSetAppend(st: Store, a: Article)
    ensures SlugSet(st + [a]) == SlugSet(st) + {a.slug}
  {
    assert forall b :: b in st + [a] <==> b in st || b == a;
  }

  /** `updateOne({ slug }, fields, { upsert: true })`: overwrite the written fields of the
      record with that slug, keeping its `references`, or append a new record with none.
      What the written record holds is stated by `UpsertWrites`. */
  function Upsert(st: Store, f: Fields): (r: Store)
    ensures SlugsUnique(st) ==> SlugsUnique(r)
    ensures SlugSet(r) == SlugSet(st) + {f.slug}
    ensures |r| == if f.slug in SlugSet(st) then |st| else |st| + 1
    ensures forall a :: a in st && a.slug != f.slug ==> a in r
    ensures forall a :: a in r && a.slug != f.slug ==> a in st
  {
    match IndexOfSlug(st, f.slug)
    case Some(i) =>
      var r := st[i := Written(f, st[i].references)];
      SlugSetReplace(st, i, Written(f, st[i].references));
      assert forall b :: b in st && b.slug != f.slug ==> b in r by {
        forall b | b in st && b.slug != f.slug ensures b in r {
          var k :| 0 <= k < |st| && st[k] == b;
          assert r[k] == b;
        }
      }
      r
    case None =>
      SlugSetAppend(st, Written(f, []));
      st + [Written(f, [])]
  }

  /** The upserted record carries every written field; with unique slugs it is the only
      record with that slug; an existing record keeps its references. */
  lemma UpsertWrites(st: Store, f: Fields)
    ensures var r := Upsert(st, f);
            && (exists k :: 0 <= k < |r| && r[k].slug == f.slug && Carries(r[k], f))
            && (SlugsUnique(st) ==> forall k :: 0 <= k < |r| && r[k].slug == f.slug ==> Carries(r[k], f))
            && (forall k :: 0 <= k < |st| && st[k].slug == f.slug ==> r[k].references == st[k].references)
  {
    var r := Upsert(st, f);
    match IndexOfSlug(st, f.slug)
    case Some(i) =>
      assert r[i] == Written(f, st[i].references);
      if SlugsUnique(st) {
        assert forall k :: 0 <= k < |st| && k != i ==> r[k] == st[k] && st[k].slug != st[i].slug;
      }
    case None =>
      assert r[|st|] == Written(f, []);
  }

  /** The upsert as the collection's schema applies it: the schema declares no `author`
      path, so strict mode drops the author from the update. A new record gets no author and
      an existing record keeps the one it had. */
  function UpsertSchemaStrict(st: Store, f: Fields): (r: Store)
    ensures SlugSet(r) == SlugSet(st) + {f.slug}
    ensures |r| == if f.slug in SlugSet(st) then |st| else |st| + 1
    ensures forall k :: 0 <= k < |r| ==> r[k].author.Some? ==> k < |st| && r[k].author == st[k].author
  {
    match IndexOfSlug(st, f.slug)
    case Some(i) =>
      var a := Article(f.title, f.slug, f.content, st[i].author, Some(f.sourceUrl), st[i].references, f.createdAt);
      SlugSetReplace(st, i, a);
      st[i := a]
    case None =>
      var a := Article(f.title, f.slug, f.content, None, Some(f.sourceUrl), [], f.createdAt);
      SlugSetAppend(st, a);
      st + [a]
  }

  /** Under the schema as written, a harvested author never reaches an empty store: the saved
      record does not carry the fields the harvester wrote, where `Upsert` does. */
  lemma SchemaStrictDropsAuthor(f: Fields)
    ensures |UpsertSchemaStrict([], f)| == 1 && UpsertSchemaStrict([], f)[0].author.None?
    ensures !Carries(UpsertSchemaStrict([], f)[0], f)
    ensures Carries(Upsert([], f)[0], f)
  {
    assert IndexOfSlug([], f.slug).None?;
    assert Upsert([], f) == [Written(f, [])];
  }

  /** Saving the same fields twice leaves the store as saving them once. */
  lemma UpsertIdempotent(st: Store, f: Fields)
    ensures Upsert(Upsert(st, f), f) == Upsert(st, f)
  {
    match IndexOfSlug(st, f.slug)
    case Some(i) => UpsertAgainFound(st, f, i);
    case None => UpsertAgainNew(st, f);
  }

  lemma UpsertAgainFound(st: Store, f: Fields, i: nat)
    requires IndexOfSlug(st, f.slug) == Some(i)
    ensures Upsert(Upsert(st, f), f) == Upsert(st, f)
  {
    var a := Written(f, st[i].references);
    var r := st[i := a];
    assert Upsert(st, f) == r;
    assert forall k :: 0 <= k < i ==> r[k].slug != f.slug;
    assert r[i] in r && r[i].slug == f.slug;
    assert IndexOfSlug(r, f.slug) == Some(i);
    assert r[i := a] == r;
  }

  lemma UpsertAgainNew(st: Store, f: Fields)
    requires IndexOfSlug(st, f.slug).None?
    ensures Upsert(Upsert(st, f), f) == Upsert(st, f)
  {
    var a := Written(f, []);
    var r := st + [a];
    assert Upsert(st, f) == r;
    forall k | 0 <= k < |st| ensures r[k].slug != f.slug {
      assert r[k] == st[k] && st[k] in st;
    }
    assert r[|st|] in r && r[|st|].slug == f.slug;
    assert IndexOfSlug(r, f.slug) == Some(|st|);
    assert r[|st| := a] == r;
  }

  /** `new Article(a).save()`: an insert, refused when the unique index already holds the slug. */
  function Insert(st: Store, a: Article): (r: Result<Store, string>)
    ensures r.Success? <==> a.slug !in SlugSet(st)
    ensures r.Success? ==> r.value == st + [a]
    ensures SlugsUnique(st) && r.Success? ==> SlugsUnique(r.value)
  {
    if IndexOfSlug(st, a.slug).Some? then Failure("E11000 duplicate key error")
    else
      assert forall k :: 0 <= k < |st| ==> st[k].slug != a.slug by {
        forall k | 0 <= k < |st| ensures st[k].slug != a.slug {
          assert st[k] in st;
        }
      }
      Success(st + [a])
  }

  /** `findOne().sort({ createdAt: -1 })`: the position of a record with the greatest
      `createdAt`; among equal dates the first in natural order. */
  function LatestIndex(st: Store): (r: Option<nat>)
    ensures r.None? <==> st == []
    ensures r.Some? ==> r.value < |st|
    ensures r.Some? ==> forall k :: 0 <= k < |st| ==> st[k].createdAt <= st[r.value].createdAt
    ensures r.Some? ==> forall k :: 0 <= k < r.value ==> st[k].createdAt < st[r.value].createdAt
  {
    if st == [] then None
    else match LatestIndex(st[1..])
      case None => Some(0)
      case Some(j) => if st[j + 1].createdAt > st[0].createdAt then Some(j + 1) else Some(0)
  }

  function Latest(st: Store): (r: Option<Article>)
    ensures r.None? <==> st == []
    ensures r.Some? ==> r.value in st && forall a :: a in st ==> a.createdAt <= r.value.createdAt
  {
    match LatestIndex(st)
    case None => None
    case Some(i) => Some(st[i])
  }
}

=== FILE: candidates.dfy ===
/** Phase 2 of the harvester: the (link, date) candidates read from the listing cards,
    deduplicated by link, sorted oldest first and cut to the oldest five. */
module Candidates {
  import opened Wrappers
  import opened Text
  import opened Seqs
  import opened Listing

  /** A blog post seen on a listing page, with its date in milliseconds since the epoch. */
  datatype Candidate = Candidate(link: string, date: int)

  /** `new Date(s).getTime()` for a non-empty date string. */
  type DateParser = string -> int

  /** How many candidates are kept. */
  const TopCount: nat := 5

  /** `card.querySelector("time") || card.querySelector(".date")`. */
  function DateTagOf(card: Card): Option<DateTag> {
    if card.time.Some? then card.time else card.dateClass
  }

  /** `getAttribute("datetime") || textContent.trim()`: an empty attribute falls back to the text. */
  function DateString(tag: DateTag): (r: string)
    ensures tag.datetime.Some? && tag.datetime.value != "" ==> r == tag.datetime.value
    ensures (tag.datetime.None? || tag.datetime.value == "") ==> r == Trim(tag.text)
  {
    match tag.datetime
    case Some(d) => if d != "" then d else Trim(tag.text)
    case None => Trim(tag.text)
  }

  /** The candidate's date: the epoch when the card has no date element or its date string
      is empty, else the parsed date string. */
  function CardDate(card: Card, parseDate: DateParser): (d: int)
    ensures DateTagOf(card).None? ==> d == 0
    ensures DateTagOf(card).Some? && DateString(DateTagOf(card).value) == "" ==> d == 0
    ensures DateTagOf(card).Some? && DateString(DateTagOf(card).value) != "" ==>
              d == parseDate(DateString(DateTagOf(card).value))
  {
    match DateTagOf(card)
    case None => 0
    case Some(tag) =>
      var s := DateString(tag);
      if s != "" then parseDate(s) else 0
  }

  /** What one card contributes: nothing, a candidate, or an error that ends the page's scan
      (a relative href that `new URL` rejects). */
  datatype CardOutcome = Skip | Yield(candidate: Candidate) | Abort

  /** A card yields a candidate only when its first anchor's href contains "/blogs/". */
  function ScanCard(card: Card, resolve: Resolver, parseDate: DateParser): (r: CardOutcome)
    ensures r.Skip? <==> card.anchor.None? || !Contains(card.anchor.value.href, "/blogs/")
    ensures r.Abort? <==> card.anchor.Some? && Contains(card.anchor.value.href, "/blogs/") &&
                          ResolveHref(resolve, card.anchor.value.href).None?
    ensures r.Yield? ==> ResolveHref(resolve, card.anchor.value.href) == Some(r.candidate.link)
    ensures r.Yield? ==> r.candidate.date == CardDate(card, parseDate)
  {
    match card.anchor
    case None => Skip
    case Some(a) =>
      if !Contains(a.href, "/blogs/") then Skip
      else match ResolveHref(resolve, a.href)
        case None => Abort
        case Some(link) => Yield(Candidate(link, CardDate(card, parseDate)))
  }

  /** The candidates of one page's cards, in document order, up to the first card whose
      link cannot be resolved (the exception leaves the loop; what was pushed stays). */
  function ScanCards(cards: seq<Card>, resolve: Resolver, parseDate: DateParser): (r: seq<Candidate>)
    ensures |r| <= |cards|
    ensures forall c :: c in r ==> exists j :: 0 <= j < |cards| && ScanCard(cards[j], resolve, parseDate) == Yield(c)
    ensures (forall j :: 0 <= j < |cards| ==> !ScanCard(cards[j], resolve, parseDate).Abort?) ==>
              forall j :: 0 <= j < |cards| && ScanCard(cards[j], resolve, parseDate).Yield? ==>
                ScanCard(cards[j], resolve, parseDate).candidate in r
  {
    if cards == [] then []
    else
      var rest := ScanCards(cards[1..], resolve, parseDate);
      assert forall j :: 1 <= j < |cards| ==> cards[j] == cards[1..][j - 1];
      match ScanCard(cards[0], resolve, parseDate)
      case Skip => rest
      case Yield(c) => [c] + rest
      case Abort => []
  }

  /** The position of the first card whose link cannot be resolved, or the number of cards. */
  function FirstAbort(cards: seq<Card>, resolve: Resolver, parseDate: DateParser): (k: nat)
    ensures k <= |cards|
    ensures forall j :: 0 <= j < k ==> !ScanCard(cards[j], resolve, parseDate).Abort?
    ensures k < |cards| ==> ScanCard(cards[k], resolve, parseDate).Abort?
  {
    if cards == [] || ScanCard(cards[0], resolve, parseDate).Abort? then 0
    else
      var k := FirstAbort(cards[1..], resolve, parseDate);
      assert forall j :: 1 <= j < |cards| ==> cards[j] == cards[1..][j - 1];
      1 + k
  }

  /** Reference definition: the candidates the cards yield, in order, ignoring aborts. */
  function Yields(cards: seq<Card>, resolve: Resolver, parseDate: DateParser): seq<Candidate> {
    if cards == [] then []
    else
      var o := ScanCard(cards[|cards| - 1], resolve, parseDate);
      Yields(cards[..|cards| - 1], resolve, parseDate) + (if o.Yield? then [o.candidate] else [])
  }

  lemma {:induction false} YieldsCons(card: Card, cards: seq<Card>, resolve: Resolver, parseDate: DateParser)
    ensures var o := ScanCard(card, resolve, parseDate);
            Yields([card] + cards, resolve, parseDate) ==
              (if o.Yield? then [o.candidate] else []) + Yields(cards, resolve, parseDate)
    decreases |cards|
  {
    if cards != [] {
      var init := cards[..|cards| - 1];
      assert ([card] + cards)[..|cards|] == [card] + init;
      assert ([card] + cards)[|cards|] == cards[|cards| - 1];
      YieldsCons(card, init, resolve, parseDate);
    } else {
      assert ([card] + cards)[..0] == [];
    }
  }

  /** The scan of a page's cards is exactly what the cards before the first unresolvable
      link yield, in document order. */
  lemma {:induction false} ScanCardsUpToAbort(cards: seq<Card>, resolve: Resolver, parseDate: DateParser)
    ensures ScanCards(cards, resolve, parseDate) ==
              Yields(cards[..FirstAbort(cards, resolve, parseDate)], resolve, parseDate)
  {
    if cards != [] && !ScanCard(cards[0], resolve, parseDate).Abort? {
      var k := FirstAbort(cards[1..], resolve, parseDate);
      ScanCardsUpToAbort(cards[1..], resolve, parseDate);
      assert FirstAbort(cards, resolve, parseDate) == 1 + k;
      assert cards[..1 + k] == [cards[0]] + cards[1..][..k];
      YieldsCons(cards[0], cards[1..][..k], resolve, parseDate);
    }
  }

  /** The candidates of listing page `n`; a page that cannot be fetched contributes none. */
  function ScanPage(fetch: PageFetch, resolve: Resolver, parseDate: DateParser, n: nat): (r: seq<Candidate>)
    ensures fetch(PageUrl(n)).None? ==> r == []
  {
    match fetch(PageUrl(n))
    case None => []
    case Some(page) => ScanCards(page.cards, resolve, parseDate)
  }

  /** A fetched page contributes what its cards yield before the first unresolvable link. */
  lemma ScanPageUpToAbort(fetch: PageFetch, resolve: Resolver, parseDate: DateParser, n: nat)
    requires fetch(PageUrl(n)).Some?
    ensures var cards := fetch(PageUrl(n)).value.cards;
            ScanPage(fetch, resolve, parseDate, n) == Yields(cards[..FirstAbort(cards, resolve, parseDate)], resolve, parseDate)
  {
    ScanCardsUpToAbort(fetch(PageUrl(n)).value.cards, resolve, parseDate);
  }

  /** The candidates of all the chosen pages, page by page. */
  function CollectCandidates(fetch: PageFetch, resolve: Resolver, parseDate: DateParser, pages: seq<nat>): (r: seq<Candidate>)
    ensures forall c :: c in r ==> exists i :: 0 <= i < |pages| && c in ScanPage(fetch, resolve, parseDate, pages[i])
  {
    if pages == [] then []
    else
      var head := ScanPage(fetch, resolve, parseDate, pages[0]);
      var rest := CollectCandidates(fetch, resolve, parseDate, pages[1..]);
      assert forall i :: 0 <= i < |pages| - 1 ==> pages[1..][i] == pages[i + 1];
      head + rest
  }

  /** Every collected candidate was found on one of the chosen pages, and every candidate of
      a chosen page is collected. */
  lemma {:induction false} CollectCandidatesFrom(fetch: PageFetch, resolve: Resolver, parseDate: DateParser, pages: seq<nat>)
    ensures forall c :: c in CollectCandidates(fetch, resolve, parseDate, pages) <==>
              exists i :: 0 <= i < |pages| && c in ScanPage(fetch, resolve, parseDate, pages[i])
  {
    if pages != [] {
      CollectCandidatesFrom(fetch, resolve, parseDate, pages[1..]);
      assert forall i :: 1 <= i < |pages| ==> pages[i] == pages[1..][i - 1];
      forall c | exists i :: 0 <= i < |pages| && c in ScanPage(fetch, resolve, parseDate, pages[i])
        ensures c in CollectCandidates(fetch, resolve, parseDate, pages)
      {
        var i :| 0 <= i < |pages| && c in ScanPage(fetch, resolve, parseDate, pages[i]);
        if i > 0 {
          assert c in ScanPage(fetch, resolve, parseDate, pages[1..][i - 1]);
        }
      }
    }
  }

  /** Collecting over two lists of pages is collecting over each, one after the other. */
  lemma {:induction false} CollectCandidatesAppend(fetch: PageFetch, resolve: Resolver, parseDate: DateParser,
                                                   a: seq<nat>, b: seq<nat>)
    ensures CollectCandidates(fetch, resolve, parseDate, a + b) ==
              CollectCandidates(fetch, resolve, parseDate, a) + CollectCandidates(fetch, resolve, parseDate, b)
  {
    if a != [] {
      var ab := a + b;
      assert ab[0] == a[0] && ab[1..] == a[1..] + b;
      CollectCandidatesAppend(fetch, resolve, parseDate, a[1..], b);
      AppendAssoc(ScanPage(fetch, resolve, parseDate, a[0]), CollectCandidates(fetch, resolve, parseDate, a[1..]),
                  CollectCandidates(fetch, resolve, parseDate, b));
    } else {
      assert a + b == b;
    }
  }

  function LinksOf(s: seq<Candidate>): set<string> {
    set c | c in s :: c.link
  }

  predicate LinksDistinct(s: seq<Candidate>) {
    forall i, j :: 0 <= i < j < |s| ==> s[i].link != s[j].link
  }

  lemma LinksOfAppend(s: seq<Candidate>, c: Candidate)
    ensures LinksOf(s + [c]) == LinksOf(s) + {c.link}
  {
    assert forall x :: x in s + [c] <==> x in s || x == c;
  }

  /** The first candidate of `s` that has `link`. */
  function FirstWithLink(s: seq<Candidate>, link: string): (c: Candidate)
    requires link in LinksOf(s)
    ensures c in s && c.link == link
    ensures exists i :: 0 <= i < |s| && s[i] == c && forall j :: 0 <= j < i ==> s[j].link != link
  {
    var p := s[..|s| - 1];
    assert s == p + [s[|s| - 1]];
    LinksOfAppend(p, s[|s| - 1]);
    if link in LinksOf(p) then
      var c := FirstWithLink(p, link);
      assert forall i :: 0 <= i < |p| ==> p[i] == s[i];
      c
    else
      assert forall j :: 0 <= j < |p| ==> p[j] in p && s[j] == p[j];
      s[|s| - 1]
  }

  /** The `seen`-set loop: keep a candidate only when its link was not seen before. The
      result has one candidate per link and loses no link. */
  function Dedup(s: seq<Candidate>): (r: seq<Candidate>)
    ensures LinksDistinct(r)
    ensures LinksOf(r) == LinksOf(s)
  {
    if s == [] then []
    else
      var p := s[..|s| - 1];
      var c := s[|s| - 1];
      assert s == p + [c];
      LinksOfAppend(p, c);
      var d := Dedup(p);
      if c.link in LinksOf(d) then d
      else
        LinksOfAppend(d, c);
        assert forall k :: 0 <= k < |d| ==> d[k].link != c.link by {
          forall k | 0 <= k < |d| ensures d[k].link != c.link {
            assert d[k] in d;
          }
        }
        d + [c]
  }

  /** Deduplication keeps the input's order: its result is a subsequence of the input. */
  lemma {:induction false} DedupSubseq(s: seq<Candidate>)
    ensures IsSubseq(Dedup(s), s)
  {
    if s != [] {
      var p := s[..|s| - 1];
      var c := s[|s| - 1];
      DedupSubseq(p);
      var d := Dedup(p);
      assert s == p + [c];
      if c.link in LinksOf(d) {
        SubseqExtend(d, p, c);
      } else {
        assert (d + [c])[..|d|] == d;
      }
    }
  }

  /** Deduplication keeps the first candidate of every link. */
  lemma {:induction false} DedupKeepsFirst(s: seq<Candidate>)
    ensures forall k :: 0 <= k < |Dedup(s)| ==>
              Dedup(s)[k].link in LinksOf(s) && Dedup(s)[k] == FirstWithLink(s, Dedup(s)[k].link)
  {
    if s != [] {
      var p := s[..|s| - 1];
      var c := s[|s| - 1];
      DedupKeepsFirst(p);
      var d := Dedup(p);
      assert s == p + [c];
      LinksOfAppend(p, c);
      forall k | 0 <= k < |Dedup(s)|
        ensures Dedup(s)[k].link in LinksOf(s) && Dedup(s)[k] == FirstWithLink(s, Dedup(s)[k].link)
      {
        if k < |d| {
          assert Dedup(s)[k] == d[k];
          assert d[k] in d;
        }
      }
    }
  }

  predicate SortedByDate(s: seq<Candidate>) {
    forall i, j :: 0 <= i < j < |s| ==> s[i].date <= s[j].date
  }

  /** The candidates of `s` dated `d`, in order: a stable sort keeps this for every date. */
  function WithDate(s: seq<Candidate>, d: int): seq<Candidate> {
    if s == [] then [] else (if s[0].date == d then [s[0]] else []) + WithDate(s[1..], d)
  }

  /** Inserts `x` before the first element not older than it. */
  function Insert(x: Candidate, t: seq<Candidate>): (r: seq<Candidate>)
    ensures multiset(r) == multiset(t) + multiset{x}
    ensures |r| == |t| + 1
  {
    if t == [] || x.date <= t[0].date then [x] + t
    else
      assert t == [t[0]] + t[1..];
      [t[0]] + Insert(x, t[1..])
  }

  lemma {:induction false} InsertSorted(x: Candidate, t: seq<Candidate>)
    requires SortedByDate(t)
    ensures SortedByDate(Insert(x, t))
  {
    if t != [] && x.date > t[0].date {
      InsertSorted(x, t[1..]);
      var r' := Insert(x, t[1..]);
      forall j | 0 <= j < |r'| ensures t[0].date <= r'[j].date {
        assert r'[j] in multiset(r');
        if r'[j] != x {
          assert r'[j] in t[1..];
        }
      }
      assert Insert(x, t) == [t[0]] + r';
    }
  }

  lemma {:induction false} WithDateSingle(x: Candidate, t: seq<Candidate>, d: int)
    ensures WithDate([x] + t, d) == WithDate([x], d) + WithDate(t, d)
  {
    assert ([x] + t)[1..] == t;
    assert [x][1..] == [];
  }

  /** Insertion places `x` ahead of every element dated like it. */
  lemma {:induction false} InsertWithDate(x: Candidate, t: seq<Candidate>, d: int)
    ensures WithDate(Insert(x, t), d) == WithDate([x], d) + WithDate(t, d)
  {
    if t == [] || x.date <= t[0].date {
      WithDateSingle(x, t, d);
    } else {
      var r' := Insert(x, t[1..]);
      InsertWithDate(x, t[1..], d);
      InsertStep(x, t);
      WithDateSingle(t[0], r', d);
      WithDateCons(t, d);
      WithDateOne(x, d);
      WithDateOne(t[0], d);
    }
  }

  lemma InsertStep(x: Candidate, t: seq<Candidate>)
    requires t != [] && x.date > t[0].date
    ensures Insert(x, t) == [t[0]] + Insert(x, t[1..])
  {
  }

  lemma WithDateOne(c: Candidate, d: int)
    ensures WithDate([c], d) == if c.date == d then [c] else []
  {
    assert [c][1..] == [];
  }

  /** `sort((a, b) => a.date - b.date)`: a permutation of `s` (stable and oldest first, by
      `SortByDateSorted` and `SortByDateStable`). */
  function SortByDate(s: seq<Candidate>): (r: seq<Candidate>)
    ensures multiset(r) == multiset(s)
    ensures |r| == |s|
  {
    if s == [] then []
    else
      assert s == [s[0]] + s[1..];
      Insert(s[0], SortByDate(s[1..]))
  }

  /** The sorted candidates are oldest first. */
  lemma {:induction false} SortByDateSorted(s: seq<Candidate>)
    ensures SortedByDate(SortByDate(s))
  {
    if s != [] {
      SortByDateSorted(s[1..]);
      InsertSorted(s[0], SortByDate(s[1..]));
    }
  }

  /** The sort is stable: the candidates of any one date keep their original order. */
  lemma {:induction false} SortByDateStable(s: seq<Candidate>, d: int)
    ensures WithDate(SortByDate(s), d) == WithDate(s, d)
  {
    if s != [] {
      var t := SortByDate(s[1..]);
      SortByDateStable(s[1..], d);
      InsertWithDate(s[0], t, d);
      WithDateCons(s, d);
      SortByDateStep(s);
    }
  }

  lemma SortByDateStep(s: seq<Candidate>)
    requires s != []
    ensures SortByDate(s) == Insert(s[0], SortByDate(s[1..]))
  {
  }

  lemma WithDateCons(s: seq<Candidate>, d: int)
    requires s != []
    ensures WithDate(s, d) == WithDate([s[0]], d) + WithDate(s[1..], d)
  {
    WithDateOne(s[0], d);
  }

  /** The elements of `Insert(x, t)` are `x` and those of `t`. */
  lemma InsertMembers(x: Candidate, t: seq<Candidate>)
    ensures forall y :: y in Insert(x, t) <==> y == x || y in t
  {
    var r := Insert(x, t);
    forall y ensures y in r <==> y == x || y in t {
      assert y in r <==> y in multiset(r);
      assert y in t <==> y in multiset(t);
    }
  }

  lemma {:induction false} InsertDistinct(x: Candidate, t: seq<Candidate>)
    requires LinksDistinct(t) && x.link !in LinksOf(t)
    ensures LinksDistinct(Insert(x, t))
  {
    if t == [] || x.date <= t[0].date {
      forall j | 0 <= j < |t| ensures t[j].link != x.link {
        assert t[j] in t;
      }
    } else {
      var t' := t[1..];
      TailLinks(t, x.link);
      InsertDistinct(x, t');
      InsertHeadDistinct(x, t);
      assert Insert(x, t) == [t[0]] + Insert(x, t');
    }
  }

  lemma TailLinks(t: seq<Candidate>, link: string)
    requires t != [] && link !in LinksOf(t)
    ensures link !in LinksOf(t[1..])
  {
    forall y | y in t[1..] ensures y.link != link {
      assert y in t;
    }
  }

  lemma InsertHeadDistinct(x: Candidate, t: seq<Candidate>)
    requires t != [] && LinksDistinct(t) && x.link !in LinksOf(t)
    requires LinksDistinct(Insert(x, t[1..]))
    ensures LinksDistinct([t[0]] + Insert(x, t[1..]))
  {
    var t' := t[1..];
    var r' := Insert(x, t');
    InsertMembers(x, t');
    assert t[0] in t;
    forall j | 0 <= j < |r'| ensures r'[j].link != t[0].link {
      if r'[j] != x {
        assert r'[j] in t';
        var k :| 0 <= k < |t'| && t'[k] == r'[j];
        assert t[k + 1] == r'[j];
      }
    }
  }

  /** Sorting candidates with distinct links leaves their links distinct. */
  lemma {:induction false} SortByDateDistinct(s: seq<Candidate>)
    requires LinksDistinct(s)
    ensures LinksDistinct(SortByDate(s))
  {
    if s != [] {
      var s' := s[1..];
      SortByDateDistinct(s');
      var t := SortByDate(s');
      assert s[0].link !in LinksOf(t) by {
        forall y | y in t ensures y.link != s[0].link {
          assert y in multiset(t);
          var k :| 0 <= k < |s'| && s'[k] == y;
          assert s[k + 1] == y;
        }
      }
      InsertDistinct(s[0], t);
    }
  }

  /** The first `n` of a sorted permutation of `u` are no younger than any other element of `u`. */
  lemma TakeIsOldest(u: seq<Candidate>, sorted: seq<Candidate>, n: nat)
    requires SortedByDate(sorted) && multiset(sorted) == multiset(u)
    ensures forall c, x :: c in u && c !in Take(sorted, n) && x in Take(sorted, n) ==> x.date <= c.date
  {
    var r := Take(sorted, n);
    forall c, x | c in u && c !in r && x in r ensures x.date <= c.date {
      assert c in multiset(sorted);
      var j :| 0 <= j < |sorted| && sorted[j] == c;
      var i :| 0 <= i < |r| && r[i] == x;
      assert j >= |r|;
    }
  }

  lemma TakeKeeps(sorted: seq<Candidate>, n: nat)
    ensures SortedByDate(sorted) ==> SortedByDate(Take(sorted, n))
    ensures LinksDistinct(sorted) ==> LinksDistinct(Take(sorted, n))
    ensures forall c :: c in Take(sorted, n) ==> c in sorted
  {
  }

  /** `uniqueCandidates.sort(...).slice(0, 5)`: the five oldest distinct candidates. */
  function SelectOldest(candidates: seq<Candidate>): (r: seq<Candidate>)
    ensures |r| == if |Dedup(candidates)| < TopCount then |Dedup(candidates)| else TopCount
    ensures SortedByDate(r)
    ensures LinksDistinct(r)
    ensures forall c :: c in r ==> c in candidates
    ensures forall c, x :: c in Dedup(candidates) && c !in r && x in r ==> x.date <= c.date
    ensures multiset(r) <= multiset(Dedup(candidates))
    ensures forall i, j :: (0 <= i < j < |Dedup(candidates)| && Dedup(candidates)[i].date == Dedup(candidates)[j].date
                            && Dedup(candidates)[j] in r) ==> Dedup(candidates)[i] in r
  {
    var u := Dedup(candidates);
    var sorted := SortByDate(u);
    var r := Take(sorted, TopCount);
    SelectedOrdered(u, sorted, r);
    SelectedFrom(candidates, u, sorted, r);
    TakeIsOldest(u, sorted, TopCount);
    TopKeepsOrder(u, sorted, r);
    r
  }

  /** A prefix of the stable sort of candidates with distinct links takes the candidates of a date
      in their original order: with a later one, it holds every earlier one of the same date. */
  lemma TopKeepsOrder(u: seq<Candidate>, sorted: seq<Candidate>, r: seq<Candidate>)
    requires LinksDistinct(u) && sorted == SortByDate(u) && |r| <= |sorted| && r == sorted[..|r|]
    ensures forall i, j :: 0 <= i < j < |u| && u[i].date == u[j].date && u[j] in r ==> u[i] in r
  {
    forall i, j | 0 <= i < j < |u| && u[i].date == u[j].date && u[j] in r
      ensures u[i] in r
    {
      TopKeepsPair(u, sorted, r, i, j);
    }
  }

  lemma TopKeepsPair(u: seq<Candidate>, sorted: seq<Candidate>, r: seq<Candidate>, i: nat, j: nat)
    requires LinksDistinct(u) && sorted == SortByDate(u) && |r| <= |sorted| && r == sorted[..|r|]
    requires i < j < |u| && u[i].date == u[j].date && u[j] in r
    ensures u[i] in r
  {
    var d := u[j].date;
    StableSplit(u, sorted, r, j, d);
    SplitMembers(u, r, i, j);
    WithDateMembers(r, d);
    SplitKeepsEarlier(WithDate(u[..j], d), WithDate(u[j..], d), WithDate(r, d), WithDate(sorted[|r|..], d), u[i], u[j]);
  }

  /** Splitting the input before position `j` and the sorted list after the prefix `r` splits
      the same list of candidates of each date. */
  lemma StableSplit(u: seq<Candidate>, sorted: seq<Candidate>, r: seq<Candidate>, j: nat, d: int)
    requires sorted == SortByDate(u) && |r| <= |sorted| && r == sorted[..|r|] && j <= |u|
    ensures WithDate(u[..j], d) + WithDate(u[j..], d) == WithDate(r, d) + WithDate(sorted[|r|..], d)
  {
    SortByDateStable(u, d);
    assert u == u[..j] + u[j..];
    WithDateAppend(u[..j], u[j..], d);
    assert sorted == r + sorted[|r|..];
    WithDateAppend(r, sorted[|r|..], d);
  }

  /** With distinct links, `u[i]` is among the candidates of its date before position `j`, and
      `u[j]` is not; and `u[j]` is among the candidates of its date in `r`. */
  lemma SplitMembers(u: seq<Candidate>, r: seq<Candidate>, i: nat, j: nat)
    requires LinksDistinct(u) && i < j < |u| && u[i].date == u[j].date && u[j] in r
    ensures var d := u[j].date;
            u[i] in WithDate(u[..j], d) && u[j] !in WithDate(u[..j], d) && u[j] in WithDate(r, d)
  {
    var d := u[j].date;
    var before := u[..j];
    WithDateMembers(before, d);
    WithDateMembers(r, d);
    assert u[i] == before[i];
    forall k | 0 <= k < j ensures before[k] != u[j] {
      assert before[k].link == u[k].link != u[j].link;
    }
  }

  lemma {:induction false} WithDateAppend(a: seq<Candidate>, b: seq<Candidate>, d: int)
    ensures WithDate(a + b, d) == WithDate(a, d) + WithDate(b, d)
  {
    if a != [] {
      var ab := a + b;
      assert ab[0] == a[0] && ab[1..] == a[1..] + b;
      WithDateAppend(a[1..], b, d);
      AppendAssoc(if a[0].date == d then [a[0]] else [], WithDate(a[1..], d), WithDate(b, d));
    } else {
      assert a + b == b;
    }
  }

  /** The candidates of `s` dated `d` are exactly the members of `s` with that date. */
  lemma {:induction false} WithDateMembers(s: seq<Candidate>, d: int)
    ensures forall x :: x in WithDate(s, d) <==> x in s && x.date == d
  {
    if s != [] {
      WithDateMembers(s[1..], d);
      assert forall x :: x in s <==> x == s[0] || x in s[1..];
    }
  }

  lemma SelectedOrdered(u: seq<Candidate>, sorted: seq<Candidate>, r: seq<Candidate>)
    requires LinksDistinct(u) && sorted == SortByDate(u) && r == Take(sorted, TopCount)
    ensures SortedByDate(sorted) && SortedByDate(r) && LinksDistinct(r)
  {
    SortByDateSorted(u);
    SortByDateDistinct(u);
    TakeKeeps(sorted, TopCount);
  }

  lemma SelectedFrom(candidates: seq<Candidate>, u: seq<Candidate>, sorted: seq<Candidate>, r: seq<Candidate>)
    requires u == Dedup(candidates) && multiset(sorted) == multiset(u) && r == Take(sorted, TopCount)
    ensures multiset(r) <= multiset(u)
    ensures forall c :: c in r ==> c in candidates
  {
    TakeSubMultiset(sorted, r);
    DedupSubseq(candidates);
    SubseqElements(u, candidates);
    forall c | c in r ensures c in candidates {
      assert c in multiset(r);
      assert c in multiset(u);
      assert c in u;
    }
  }

  lemma TakeSubMultiset(sorted: seq<Candidate>, r: seq<Candidate>)
    requires r == Take(sorted, TopCount)
    ensures multiset(r) <= multiset(sorted)
  {
    assert sorted == r + sorted[|r|..];
  }
}

=== FILE: enhancement.dfy ===
/** The enhancement run: take the latest article, research its title, gather two usable
    sources, rewrite it and save one new "(AI Enhanced)" article. The store is written only
    by the final save, so every abort leaves it as it was. */
module Enhancement {
  import opened Wrappers
  import opened Text
  import opened Articles
  import opened Llm
  import opened Seqs

  /** The marker whose presence in a title means "already enhanced". */
  const Marker: string := "(AI Enhanced)"
  const TitleSuffix: string := " (AI Enhanced)"
  const SlugInfix: string := "-ai-enhanced-"
  /** Links containing this are the site's own pages and are never researched. */
  const SelfHost: string := "beyondchats.com"
  /** A source must have strictly more characters than this. */
  const MinSourceLength: nat := 500
  const SourcesNeeded: nat := 2

  const NoArticles: string := "No articles found in DB."
  const AlreadyEnhanced: string := "Latest article is already AI enhanced. Stopping."
  const NoResults: string := "Google Search returned 0 results."

  /** The search call: ranked result links for a query, empty on any error. */
  type Search = string -> seq<string>

  /** The readability extraction of a URL's main text; `None` on any failure. */
  type Extractor = string -> Option<string>

  datatype Source = Source(link: string, content: string)

  /** The loop's result: the accepted sources, the links passed to extraction, and how many
      search results it looked at. */
  datatype Gathered = Gathered(sources: seq<Source>, tried: seq<string>, consumed: nat)

  predicate IsSelfLink(link: string) {
    Contains(link, SelfHost)
  }

  predicate Usable(content: Option<string>) {
    content.Some? && |content.value| > MinSourceLength
  }

  /** The links of `links` that are not the site's own, in order. */
  function NonSelf(links: seq<string>): (r: seq<string>)
    ensures forall l :: l in r ==> l in links && !IsSelfLink(l)
  {
    if links == [] then []
    else (if IsSelfLink(links[0]) then [] else [links[0]]) + NonSelf(links[1..])
  }

  /** Reference definition: every source the results would yield if all were tried, in rank order. */
  function AllUsable(links: seq<string>, extract: Extractor): (r: seq<Source>)
    ensures forall s :: s in r ==>
              s.link in links && !IsSelfLink(s.link) && extract(s.link) == Some(s.content) && |s.content| > MinSourceLength
  {
    if links == [] then []
    else
      var rest := AllUsable(links[1..], extract);
      if !IsSelfLink(links[0]) && Usable(extract(links[0])) then
        [Source(links[0], extract(links[0]).value)] + rest
      else rest
  }

  /** The `for (const link of allLinks)` loop, entered with `found` sources already accepted:
      it stops as soon as two sources are accepted, skips self links without extracting them,
      and accepts a source when its extracted text is longer than `MinSourceLength`. */
  function GatherFrom(links: seq<string>, extract: Extractor, found: seq<Source>): (g: Gathered)
    ensures g.consumed <= |links|
    ensures |found| >= SourcesNeeded ==> g == Gathered(found, [], 0)
    ensures found <= g.sources
    decreases |links|
  {
    if |found| >= SourcesNeeded || links == [] then
      Gathered(found, [], 0)
    else
      var link := links[0];
      if IsSelfLink(link) then
        var g := GatherFrom(links[1..], extract, found);
        Gathered(g.sources, g.tried, g.consumed + 1)
      else
        var content := extract(link);
        var found' := if Usable(content) then found + [Source(link, content.value)] else found;
        var g := GatherFrom(links[1..], extract, found');
        Gathered(g.sources, [link] + g.tried, g.consumed + 1)
  }

  /** The loop accepts what the reference definition yields, up to two, in rank order. */
  lemma {:induction false} GatherFromSources(links: seq<string>, extract: Extractor, found: seq<Source>)
    requires |found| <= SourcesNeeded
    ensures GatherFrom(links, extract, found).sources == Take(found + AllUsable(links, extract), SourcesNeeded)
    decreases |links|
  {
    if |found| < SourcesNeeded && links != [] {
      var link := links[0];
      var rest := links[1..];
      if IsSelfLink(link) {
        GatherFromSources(rest, extract, found);
      } else {
        var content := extract(link);
        var found' := if Usable(content) then found + [Source(link, content.value)] else found;
        GatherFromSources(rest, extract, found');
        assert found' + AllUsable(rest, extract) == found + AllUsable(links, extract);
      }
    } else if links == [] {
      assert found + AllUsable(links, extract) == found;
    } else {
      assert (found + AllUsable(links, extract))[..SourcesNeeded] == found;
    }
  }

  /** The links passed to extraction are exactly the non-self links among the results the
      loop looked at, in order. */
  lemma {:induction false} GatherFromTried(links: seq<string>, extract: Extractor, found: seq<Source>)
    ensures var g := GatherFrom(links, extract, found); g.tried == NonSelf(links[..g.consumed])
    decreases |links|
  {
    if |found| < SourcesNeeded && links != [] {
      var link := links[0];
      var rest := links[1..];
      var content := extract(link);
      var found' := if IsSelfLink(link) then found
                    else if Usable(content) then found + [Source(link, content.value)] else found;
      GatherFromTried(rest, extract, found');
      var g := GatherFrom(rest, extract, found');
      assert links[..g.consumed + 1] == [link] + rest[..g.consumed];
      assert ([link] + rest[..g.consumed])[1..] == rest[..g.consumed];
    } else {
      assert links[..0] == [];
    }
  }

  /** The loop looks at every result unless it reaches two sources, and then the last result
      it looked at is the second source's link: no later link is tried. */
  lemma {:induction false} GatherFromStops(links: seq<string>, extract: Extractor, found: seq<Source>)
    requires |found| < SourcesNeeded
    ensures var g := GatherFrom(links, extract, found);
            && (|g.sources| < SourcesNeeded ==> g.consumed == |links|)
            && (|g.sources| >= SourcesNeeded ==>
                  |g.sources| == SourcesNeeded && g.consumed > 0
                  && links[g.consumed - 1] == g.sources[SourcesNeeded - 1].link)
    decreases |links|
  {
    if links != [] {
      var link := links[0];
      var rest := links[1..];
      var content := extract(link);
      var found' := if IsSelfLink(link) then found
                    else if Usable(content) then found + [Source(link, content.value)] else found;
      var g := GatherFrom(rest, extract, found');
      if |found'| < SourcesNeeded {
        GatherFromStops(rest, extract, found');
        if |g.sources| >= SourcesNeeded {
          assert links[g.consumed] == rest[g.consumed - 1];
        }
      } else {
        assert g == Gathered(found', [], 0);
      }
    }
  }

  /** The source-gathering loop: the first two usable sources in rank order. */
  function Gather(links: seq<string>, extract: Extractor): (g: Gathered)
    ensures g.sources == Take(AllUsable(links, extract), SourcesNeeded)
    ensures |g.sources| <= SourcesNeeded
    ensures forall s :: s in g.sources ==> extract(s.link) == Some(s.content) && |s.content| > MinSourceLength
  {
    GatherFromSources(links, extract, []);
    assert [] + AllUsable(links, extract) == AllUsable(links, extract);
    GatherFrom(links, extract, [])
  }

  /** With at least two usable results, the loop's sources are the first two of them. */
  lemma GatherFirstTwo(links: seq<string>, extract: Extractor)
    requires |AllUsable(links, extract)| >= SourcesNeeded
    ensures var u := AllUsable(links, extract);
            Gather(links, extract).sources == [u[0], u[1]]
  {
    var u := AllUsable(links, extract);
    assert Take(u, SourcesNeeded) == [u[0], u[1]];
  }

  /** No link of the site's own is passed to extraction; the links tried are the non-self
      results in rank order, all of them when fewer than two sources were found, and none
      after the second accepted source. */
  lemma GatherTried(links: seq<string>, extract: Extractor)
    ensures var g := Gather(links, extract);
            && g.consumed <= |links|
            && g.tried == NonSelf(links[..g.consumed])
            && (forall l :: l in g.tried ==> !IsSelfLink(l))
            && (|g.sources| < SourcesNeeded ==> g.tried == NonSelf(links))
            && (|g.sources| == SourcesNeeded ==> g.consumed > 0 && links[g.consumed - 1] == g.sources[1].link)
  {
    GatherFromTried(links, extract, []);
    GatherFromStops(links, extract, []);
    assert links[..|links|] == links;
  }

  /** One `<li>` of the references list; the link is both the `href` and the text. */
  function ReferenceItem(link: string): (r: string)
    ensures Contains(r, link)
  {
    var r := "<li><a href=\"" + link + "\" target=\"_blank\">" + link + "</a></li>";
    assert r[13..13 + |link|] == link;
    assert OccursAt(r, link, 13);
    r
  }

  /** `usedLinks.map(...).join('')`. */
  function ReferenceItems(links: seq<string>): (r: string)
    ensures forall l :: l in links ==> Contains(r, l)
  {
    if links == [] then []
    else
      var head := ReferenceItem(links[0]);
      var rest := ReferenceItems(links[1..]);
      assert forall l :: l in links ==> l == links[0] || l in links[1..];
      assert forall l :: l in links ==> Contains(head + rest, l) by {
        forall l | l in links ensures Contains(head + rest, l) {
          ContainsInAppend(head, rest, l);
        }
      }
      head + rest
  }

  /** The references block appended to the rewritten content: it cites every used link. */
  function ReferencesHtml(links: seq<string>): (r: string)
    ensures forall l :: l in links ==> Contains(r, l)
  {
    var opening := "\n      <hr>\n      <h3>References</h3>\n      <ul>\n        ";
    var closing := "\n      </ul>\n    ";
    var items := ReferenceItems(links);
    assert forall l :: l in links ==> Contains(opening + items + closing, l) by {
      forall l | l in links ensures Contains(opening + items + closing, l) {
        ContainsInAppend(opening, items, l);
        ContainsInAppend(opening + items, closing, l);
      }
    }
    opening + items + closing
  }

  /** The new article built from `original`: its title carries the marker, its slug extends
      the original's, it keeps the source URL, has no author, is dated `now`, and its content
      is the rewrite followed by a block citing every used link. */
  function EnhancedArticle(original: Article, rewritten: string, used: seq<string>, stamp: nat, now: int): (r: Article)
    ensures Contains(r.title, Marker) && r != original
    ensures StartsWith(r.slug, original.slug + SlugInfix)
    ensures StartsWith(r.content, rewritten) && forall l :: l in used ==> Contains(r.content, l)
    ensures r.sourceUrl == original.sourceUrl && r.author.None? && r.references == used && r.createdAt == now
  {
    MarkerInEnhancedTitle(original.title);
    var refs := ReferencesHtml(used);
    assert forall l :: l in used ==> Contains(rewritten + refs, l) by {
      forall l | l in used ensures Contains(rewritten + refs, l) {
        ContainsInAppend(rewritten, refs, l);
      }
    }
    assert (rewritten + refs)[..|rewritten|] == rewritten;
    var slug := original.slug + SlugInfix + NatToString(stamp);
    assert slug[..|original.slug + SlugInfix|] == original.slug + SlugInfix;
    assert |original.title + TitleSuffix| > |original.title|;
    Article(original.title + TitleSuffix, slug, rewritten + refs, None, original.sourceUrl, used, now)
  }

  /** A run's reported outcome (the saved article or the abort message) and the store after it. */
  datatype Run = Run(outcome: Result<Article, string>, store: Store)

  function FewSources(k: nat): string {
    "Pipeline Failed: Found " + NatToString(k) + "/2 valid sources."
  }

  /** `runPipeline`, with `stamp` for `Date.now()` and `now` for `new Date()`. */
  function Enhance(st: Store, search: Search, extract: Extractor, generate: Generator,
                   stamp: nat, now: int): (r: Run)
    ensures r.outcome.Failure? ==> r.store == st
    ensures r.outcome.Success? ==> r.store == st + [r.outcome.value]
    ensures SlugsUnique(st) ==> SlugsUnique(r.store)
  {
    match Latest(st)
    case None => Run(Failure(NoArticles), st)
    case Some(article) =>
      if Contains(article.title, Marker) then Run(Failure(AlreadyEnhanced), st)
      else
        var links := search(article.title);
        if links == [] then Run(Failure(NoResults), st)
        else
          var sources := Gather(links, extract).sources;
          if |sources| < SourcesNeeded then Run(Failure(FewSources(|sources|)), st)
          else
            match Rewrite(Some(article.content), Some(sources[0].content), Some(sources[1].content), generate)
            case Failure(e) => Run(Failure(e), st)
            case Success(text) =>
              var used := [sources[0].link, sources[1].link];
              var enhanced := EnhancedArticle(article, text, used, stamp, now);
              match Insert(st, enhanced)
              case Failure(e) => Run(Failure(e), st)
              case Success(st') => Run(Success(enhanced), st')
  }

  /** An empty store stops the run before anything else. */
  lemma EnhanceEmptyStore(search: Search, extract: Extractor, generate: Generator, stamp: nat, now: int)
    ensures Enhance([], search, extract, generate, stamp, now) == Run(Failure(NoArticles), [])
  {
  }

  /** The run looks only at the single latest article: when its title carries the marker the
      run stops, even if older articles are not enhanced. */
  lemma EnhanceStopsOnEnhancedLatest(st: Store, search: Search, extract: Extractor, generate: Generator, stamp: nat, now: int)
    requires st != [] && Contains(Latest(st).value.title, Marker)
    ensures Enhance(st, search, extract, generate, stamp, now) == Run(Failure(AlreadyEnhanced), st)
  {
  }

  /** No search results abort the run before any extraction. */
  lemma EnhanceAbortsOnNoResults(st: Store, search: Search, extract: Extractor, generate: Generator, stamp: nat, now: int)
    requires st != [] && !Contains(Latest(st).value.title, Marker)
    requires search(Latest(st).value.title) == []
    ensures Enhance(st, search, extract, generate, stamp, now) == Run(Failure(NoResults), st)
  {
  }

  /** Some results but fewer than two usable sources abort the run with "Found k/2 valid
      sources". */
  lemma EnhanceAbortsOnFewSources(st: Store, search: Search, extract: Extractor, generate: Generator, stamp: nat, now: int)
    requires st != [] && !Contains(Latest(st).value.title, Marker)
    requires search(Latest(st).value.title) != []
    requires |AllUsable(search(Latest(st).value.title), extract)| < SourcesNeeded
    ensures var k := |AllUsable(search(Latest(st).value.title), extract)|;
            Enhance(st, search, extract, generate, stamp, now) == Run(Failure(FewSources(k)), st)
  {
    var links := search(Latest(st).value.title);
    assert |Gather(links, extract).sources| == |AllUsable(links, extract)|;
  }

  /** A successful run saves one new article: the latest article's title with the marker,
      its slug extended by the time stamp, its source URL, and as references exactly the
      first two usable results in rank order. The original stays in the store unchanged. */
  lemma EnhanceSuccess(st: Store, search: Search, extract: Extractor, generate: Generator, stamp: nat, now: int)
    requires Enhance(st, search, extract, generate, stamp, now).outcome.Success?
    ensures var a := Latest(st).value;
            var e := Enhance(st, search, extract, generate, stamp, now).outcome.value;
            var usable := AllUsable(search(a.title), extract);
            && a in Enhance(st, search, extract, generate, stamp, now).store
            && !Contains(a.title, Marker)
            && e.title == a.title + TitleSuffix
            && e.slug == a.slug + SlugInfix + NatToString(stamp)
            && e.sourceUrl == a.sourceUrl
            && e.createdAt == now
            && |usable| >= SourcesNeeded
            && e.references == [usable[0].link, usable[1].link]
  {
  }

  /** When every guard passes, the rewrite succeeds and the new slug is free, the run saves
      the enhanced article built from the latest one and the first two usable sources. */
  lemma EnhanceSucceeds(st: Store, search: Search, extract: Extractor, generate: Generator, stamp: nat, now: int)
    requires st != [] && !Contains(Latest(st).value.title, Marker)
    requires search(Latest(st).value.title) != []
    requires |AllUsable(search(Latest(st).value.title), extract)| >= SourcesNeeded
    requires var a := Latest(st).value;
             var u := AllUsable(search(a.title), extract);
             Rewrite(Some(a.content), Some(u[0].content), Some(u[1].content), generate).Success?
    requires Latest(st).value.slug + SlugInfix + NatToString(stamp) !in SlugSet(st)
    ensures var a := Latest(st).value;
            var u := AllUsable(search(a.title), extract);
            var text := Rewrite(Some(a.content), Some(u[0].content), Some(u[1].content), generate).value;
            var e := EnhancedArticle(a, text, [u[0].link, u[1].link], stamp, now);
            Enhance(st, search, extract, generate, stamp, now) == Run(Success(e), st + [e])
  {
    var a := Latest(st).value;
    var u := AllUsable(search(a.title), extract);
    GatherFirstTwo(search(a.title), extract);
    var text := Rewrite(Some(a.content), Some(u[0].content), Some(u[1].content), generate).value;
    var e := EnhancedArticle(a, text, [u[0].link, u[1].link], stamp, now);
    assert Insert(st, e) == Success(st + [e]);
  }

  /** A run can succeed: one stored article, two short non-self results whose pages extract to
      501 characters, and a 60-character reply save the enhanced article. */
  lemma EnhanceCanSucceed(stamp: nat, now: int)
    ensures var st := [Article("Title", "title", "", None, None, [], 0)];
            var page := seq(501, _ => 'x');
            var reply := seq(60, _ => 'y');
            var r := Enhance(st, _ => ["https://a.io/", "https://b.io/"], _ => Some(page),
                             (_, _, _) => Success(reply), stamp, now);
            r.outcome.Success? && |r.store| == 2
  {
    var a := Article("Title", "title", "", None, None, [], 0);
    var page := seq(501, _ => 'x');
    var reply := seq(60, _ => 'y');
    var generate: Generator := (_, _, _) => Success(reply);
    OneArticleWitness(a, stamp);
    TwoSourcesWitness("https://a.io/", "https://b.io/", page);
    assert reply[0] == 'y' && reply[|reply| - 1] == 'y';
    CleanKeepsPlain(reply);
    EnhanceSucceeds([a], _ => ["https://a.io/", "https://b.io/"], _ => Some(page), generate, stamp, now);
  }

  /** A one-article store whose title is too short to hold the marker. */
  lemma OneArticleWitness(a: Article, stamp: nat)
    requires |a.title| < |Marker|
    ensures Latest([a]) == Some(a) && !Contains(a.title, Marker)
    ensures a.slug + SlugInfix + NatToString(stamp) !in SlugSet([a])
  {
    var slug := a.slug + SlugInfix + NatToString(stamp);
    assert |slug| > |a.slug|;
    assert forall x :: x in [a] ==> x == a;
  }

  /** Two links too short to name the site, each extracting to a long page, are both usable. */
  lemma TwoSourcesWitness(l1: string, l2: string, page: string)
    requires |l1| < |SelfHost| && |l2| < |SelfHost| && |page| > MinSourceLength
    ensures AllUsable([l1, l2], _ => Some(page)) == [Source(l1, page), Source(l2, page)]
  {
    var extract: Extractor := _ => Some(page);
    assert !IsSelfLink(l1) && !IsSelfLink(l2);
    assert [l1, l2][1..] == [l2] && [l2][1..] == [];
    assert AllUsable([l2], extract) == [Source(l2, page)];
  }

  /** A failed rewrite aborts the run with the rewrite's own message and saves nothing. */
  lemma EnhanceAbortsOnRewriteFailure(st: Store, search: Search, extract: Extractor, generate: Generator, stamp: nat, now: int)
    requires st != [] && !Contains(Latest(st).value.title, Marker)
    requires search(Latest(st).value.title) != []
    requires |AllUsable(search(Latest(st).value.title), extract)| >= SourcesNeeded
    requires var a := Latest(st).value;
             var u := AllUsable(search(a.title), extract);
             Rewrite(Some(a.content), Some(u[0].content), Some(u[1].content), generate).Failure?
    ensures var a := Latest(st).value;
            var u := AllUsable(search(a.title), extract);
            var m := Rewrite(Some(a.content), Some(u[0].content), Some(u[1].content), generate).error;
            Enhance(st, search, extract, generate, stamp, now) == Run(Failure(m), st)
  {
    GatherFirstTwo(search(Latest(st).value.title), extract);
  }

  /** A rewrite that succeeds but whose new slug is already stored fails at the save under the
      unique index, and nothing is saved. */
  lemma EnhanceAbortsOnTakenSlug(st: Store, search: Search, extract: Extractor, generate: Generator, stamp: nat, now: int)
    requires st != [] && !Contains(Latest(st).value.title, Marker)
    requires search(Latest(st).value.title) != []
    requires |AllUsable(search(Latest(st).value.title), extract)| >= SourcesNeeded
    requires var a := Latest(st).value;
             var u := AllUsable(search(a.title), extract);
             Rewrite(Some(a.content), Some(u[0].content), Some(u[1].content), generate).Success?
    requires Latest(st).value.slug + SlugInfix + NatToString(stamp) in SlugSet(st)
    ensures var r := Enhance(st, search, extract, generate, stamp, now);
            r.outcome.Failure? && r.store == st
  {
    var a := Latest(st).value;
    var u := AllUsable(search(a.title), extract);
    GatherFirstTwo(search(a.title), extract);
    var text := Rewrite(Some(a.content), Some(u[0].content), Some(u[1].content), generate).value;
    var e := EnhancedArticle(a, text, [u[0].link, u[1].link], stamp, now);
    assert Insert(st, e).Failure?;
  }

  /** The enhanced title carries the marker. */
  lemma MarkerInEnhancedTitle(title: string)
    ensures Contains(title + TitleSuffix, Marker)
  {
    var t := title + TitleSuffix;
    assert t[|title| + 1..|title| + 1 + |Marker|] == Marker;
    assert OccursAt(t, Marker, |title| + 1);
  }

  /** After a successful run stamped later than every stored article, the next run finds the
      new article as the latest and stops. */
  lemma {:induction false} EnhanceTwiceStops(st: Store, search: Search, extract: Extractor, generate: Generator,
                                             stamp: nat, now: int, stamp2: nat, now2: int)
    requires forall a :: a in st ==> a.createdAt < now
    requires Enhance(st, search, extract, generate, stamp, now).outcome.Success?
    ensures var st' := Enhance(st, search, extract, generate, stamp, now).store;
            Enhance(st', search, extract, generate, stamp2, now2) == Run(Failure(AlreadyEnhanced), st')
  {
    var r := Enhance(st, search, extract, generate, stamp, now);
    var e := r.outcome.value;
    MarkerInEnhancedTitle(Latest(st).value.title);
    assert Contains(e.title, Marker) && e.createdAt == now;
    LatestOfNewer(st, e, now);
  }

  /** A record stamped later than every stored one is the latest once appended. */
  lemma LatestOfNewer(st: Store, e: Article, now: int)
    requires forall a :: a in st ==> a.createdAt < now
    requires e.createdAt == now
    ensures Latest(st + [e]) == Some(e)
  {
    var st' := st + [e];
    assert st'[|st|] == e;
    forall k | 0 <= k < |st| ensures st'[k].createdAt < now {
      assert st'[k] == st[k] && st[k] in st;
    }
    var i := LatestIndex(st').value;
    assert st'[i].createdAt >= now;
  }
}

=== FILE: harvester.dfy ===
/** Phase 3 of the harvester, and the harvest as a whole: fetch each selected candidate,
    build its record and upsert it by slug, one item at a time. */
module Harvester {
  import opened Wrappers
  import opened Text
  import opened Slugs
  import opened Articles
  import opened Listing
  import opened Candidates

  /** A fetched and parsed article page: the text of its first `<h1>`, the text of every `<p>`
      in its first `.entry-content` (else its first `<article>`; `None` when there is
      neither), the text of its first `.author-name`, and the `datetime` attribute of its
      first `<time>` (`None` when there is no such element or attribute). */
  datatype ArticlePage = ArticlePage(
    h1: Option<string>,
    paragraphs: Option<seq<string>>,
    authorName: Option<string>,
    timeDatetime: Option<string>)

  /** Fetching and parsing an article URL; `None` when the request or the parse throws. */
  type ArticleFetch = string -> Option<ArticlePage>

  const UnknownAuthor: string := "Unknown"

  function TrimAll(ps: seq<string>): (r: seq<string>)
    ensures |r| == |ps| && forall k :: 0 <= k < |ps| ==> r[k] == Trim(ps[k])
  {
    if ps == [] then [] else [Trim(ps[0])] + TrimAll(ps[1..])
  }

  /** The record one item is saved as; `None` when the page has no title (`continue`). */
  function BuildFields(item: Candidate, page: ArticlePage, parseDate: DateParser): (r: Option<Fields>)
    ensures r.None? <==> page.h1.None? || Trim(page.h1.value) == ""
    ensures r.Some? ==> r.value.title == Trim(page.h1.value) && r.value.title != ""
    ensures r.Some? ==> r.value.slug == Slugify(r.value.title) && IsSlug(r.value.slug)
    ensures r.Some? ==> r.value.author != ""
    ensures r.Some? ==> (r.value.author == UnknownAuthor <==>
                          page.authorName.None? || Trim(page.authorName.value) in {"", UnknownAuthor})
    ensures r.Some? && page.timeDatetime.Some? && page.timeDatetime.value != "" ==>
              r.value.createdAt == parseDate(page.timeDatetime.value)
    ensures r.Some? && (page.timeDatetime.None? || page.timeDatetime.value == "") ==>
              r.value.createdAt == item.date
    ensures r.Some? ==> r.value.sourceUrl == item.link
    ensures r.Some? && page.authorName.Some? && Trim(page.authorName.value) != "" ==>
              r.value.author == Trim(page.authorName.value)
    ensures r.Some? && page.paragraphs.None? ==> r.value.content == ""
    ensures r.Some? && page.paragraphs.Some? ==> r.value.content == Join("\n\n", TrimAll(page.paragraphs.value))
  {
    var title := if page.h1.Some? then Trim(page.h1.value) else "";
    if title == "" then None
    else
      var content := match page.paragraphs
        case None => ""
        case Some(ps) => Join("\n\n", TrimAll(ps));
      var author := match page.authorName
        case None => UnknownAuthor
        case Some(a) => if Trim(a) != "" then Trim(a) else UnknownAuthor;
      var createdAt := match page.timeDatetime
        case None => item.date
        case Some(d) => if d != "" then parseDate(d) else item.date;
      Some(Fields(title, Slugify(title), content, author, createdAt, item.link))
  }

  /** The fields `item` is saved with, or `None` when it is skipped (fetch error or no title). */
  function ItemFields(fetch: ArticleFetch, parseDate: DateParser, item: Candidate): (r: Option<Fields>)
    ensures r.None? <==> fetch(item.link).None? || fetch(item.link).value.h1.None? || Trim(fetch(item.link).value.h1.value) == ""
    ensures r.Some? ==> r.value.sourceUrl == item.link && r.value.title != "" && IsSlug(r.value.slug)
  {
    match fetch(item.link)
    case None => None
    case Some(page) => BuildFields(item, page, parseDate)
  }

  /** One iteration of the loop: a skipped or failing item leaves the store as it was. */
  function SaveItem(st: Store, fetch: ArticleFetch, parseDate: DateParser, item: Candidate): (r: Store)
    ensures ItemFields(fetch, parseDate, item).None? ==> r == st
    ensures ItemFields(fetch, parseDate, item).Some? ==> r == Upsert(st, ItemFields(fetch, parseDate, item).value)
  {
    match ItemFields(fetch, parseDate, item)
    case None => st
    case Some(f) => Upsert(st, f)
  }

  /** The slugs the items are saved under, in order (skipped items contribute none). */
  function SavedSlugs(fetch: ArticleFetch, parseDate: DateParser, items: seq<Candidate>): set<string> {
    if items == [] then {}
    else
      var rest := SavedSlugs(fetch, parseDate, items[..|items| - 1]);
      match ItemFields(fetch, parseDate, items[|items| - 1])
      case None => rest
      case Some(f) => rest + {f.slug}
  }

  /** The `for (const item of top5)` loop. */
  function SaveAll(st: Store, fetch: ArticleFetch, parseDate: DateParser, items: seq<Candidate>): (r: Store)
    ensures SlugsUnique(st) ==> SlugsUnique(r)
    ensures SlugSet(r) == SlugSet(st) + SavedSlugs(fetch, parseDate, items)
    ensures forall a :: a in st && a.slug !in SavedSlugs(fetch, parseDate, items) ==> a in r
  {
    if items == [] then st
    else
      var prev := SaveAll(st, fetch, parseDate, items[..|items| - 1]);
      SaveItem(prev, fetch, parseDate, items[|items| - 1])
  }

  /** Running the loop over `a` then `b` is running it over `a + b`. */
  lemma {:induction false} SaveAllAppend(st: Store, fetch: ArticleFetch, parseDate: DateParser, a: seq<Candidate>, b: seq<Candidate>)
    ensures SaveAll(st, fetch, parseDate, a + b) == SaveAll(SaveAll(st, fetch, parseDate, a), fetch, parseDate, b)
    decreases |b|
  {
    if b == [] {
      assert a + b == a;
    } else {
      var b' := b[..|b| - 1];
      assert (a + b)[..|a + b| - 1] == a + b';
      assert (a + b)[|a + b| - 1] == b[|b| - 1];
      SaveAllAppend(st, fetch, parseDate, a, b');
    }
  }

  /** A failing or untitled item does not stop later items: the loop behaves as if it were absent. */
  lemma {:induction false} SkippedItemIsInert(st: Store, fetch: ArticleFetch, parseDate: DateParser,
                                              a: seq<Candidate>, item: Candidate, b: seq<Candidate>)
    requires ItemFields(fetch, parseDate, item).None?
    ensures SaveAll(st, fetch, parseDate, a + [item] + b) == SaveAll(st, fetch, parseDate, a + b)
  {
    SaveAllAppend(st, fetch, parseDate, a + [item], b);
    SaveAllAppend(st, fetch, parseDate, a, b);
    assert (a + [item])[..|a + [item]| - 1] == a;
  }

  /** Re-running the loop over the same items creates no record: every slug it saves is
      already in the store the first run produced, so the store keeps its size. */
  lemma {:induction false} SaveAllRerunAddsNothing(st: Store, fetch: ArticleFetch, parseDate: DateParser, items: seq<Candidate>)
    requires SlugsUnique(st)
    ensures |SaveAll(SaveAll(st, fetch, parseDate, items), fetch, parseDate, items)|
         == |SaveAll(st, fetch, parseDate, items)|
  {
    var once := SaveAll(st, fetch, parseDate, items);
    var twice := SaveAll(once, fetch, parseDate, items);
    UniqueSlugsCount(once);
    UniqueSlugsCount(twice);
  }

  /** The store holds as many records as it has slugs when its slugs are unique. */
  lemma {:induction false} UniqueSlugsCount(st: Store)
    requires SlugsUnique(st)
    ensures |SlugSet(st)| == |st|
  {
    if st != [] {
      var p := st[..|st| - 1];
      var a := st[|st| - 1];
      assert st == p + [a];
      UniqueInit(st);
      UniqueSlugsCount(p);
      SlugSetAppend(p, a);
    }
  }

  /** Dropping the last record keeps slugs unique, and the last slug is not among the others. */
  lemma UniqueInit(st: Store)
    requires SlugsUnique(st) && st != []
    ensures SlugsUnique(st[..|st| - 1]) && st[|st| - 1].slug !in SlugSet(st[..|st| - 1])
  {
    var p := st[..|st| - 1];
    forall b | b in p ensures b.slug != st[|st| - 1].slug {
      var k :| 0 <= k < |p| && p[k] == b;
      assert st[k] == b;
    }
  }

  /** The whole harvest: find the last listing page, scan it and the one before, keep the five
      oldest distinct candidates, and save each. At most five records are added, one per slug. */
  function Harvest(st: Store, listing: PageFetch, resolve: Resolver, parseDate: DateParser,
                   articles: ArticleFetch, fuel: nat): (r: Store)
    ensures SlugsUnique(st) ==> SlugsUnique(r)
    ensures SlugSet(st) <= SlugSet(r)
    ensures SlugsUnique(st) ==> |r| <= |st| + TopCount
  {
    var lastUrl := FindLastPage(listing, resolve, fuel);
    var pages := PagesToScrape(LastPageNumber(lastUrl));
    var top := SelectOldest(CollectCandidates(listing, resolve, parseDate, pages));
    var r := SaveAll(st, articles, parseDate, top);
    SavedSlugsBound(articles, parseDate, top);
    if SlugsUnique(st) then
      UniqueSlugsCount(st);
      UniqueSlugsCount(r);
      assert |SlugSet(r)| <= |SlugSet(st)| + |SavedSlugs(articles, parseDate, top)|;
      r
    else r
  }

  lemma {:induction false} SavedSlugsBound(fetch: ArticleFetch, parseDate: DateParser, items: seq<Candidate>)
    ensures |SavedSlugs(fetch, parseDate, items)| <= |items|
  {
    if items != [] {
      SavedSlugsBound(fetch, parseDate, items[..|items| - 1]);
    }
  }
}

=== FILE: listing.dfy ===
/** The blog listing: parsed pages, the walk along "next" links to the last page,
    and the choice of the two listing pages to harvest from. */
module Listing {
  import opened Wrappers
  import opened Text

  /** The listing's first page; relative hrefs are resolved against it. */
  const BaseUrl: string := "https://beyondchats.com/blogs/"

  /** An `<a>` element: its text content, its classes and its `href` property
      ("" when the element has no `href` attribute). */
  datatype Anchor = Anchor(text: string, classes: seq<string>, href: string)

  /** A `<time>` or `.date` element: its `datetime` attribute and its text content. */
  datatype DateTag = DateTag(datetime: Option<string>, text: string)

  /** An `article`, `.post` or `.type-post` element: its first `<a>`, its first `<time>`
      and its first `.date` element. */
  datatype Card = Card(anchor: Option<Anchor>, time: Option<DateTag>, dateClass: Option<DateTag>)

  /** A fetched and parsed listing page: every `<a>` and every card, in document order. */
  datatype ListingPage = ListingPage(anchors: seq<Anchor>, cards: seq<Card>)

  /** Fetching and parsing a URL; `None` when the request or the parse throws. */
  type PageFetch = string -> Option<ListingPage>

  /** `new URL(href, BaseUrl).toString()`; `None` when the constructor throws. */
  type Resolver = string -> Option<string>

  /** Text that trims and lower-cases to "next", or the class `next`. */
  predicate IsNextAnchor(a: Anchor) {
    Lower(Trim(a.text)) == "next" || "next" in a.classes
  }

  /** The position `[...anchors].find(IsNextAnchor)` stops at: the first "next" anchor. */
  function FindNext(anchors: seq<Anchor>): (r: Option<nat>)
    ensures r.None? <==> forall k :: 0 <= k < |anchors| ==> !IsNextAnchor(anchors[k])
    ensures r.Some? ==> r.value < |anchors| && IsNextAnchor(anchors[r.value])
    ensures r.Some? ==> forall j :: 0 <= j < r.value ==> !IsNextAnchor(anchors[j])
  {
    if anchors == [] then None
    else if IsNextAnchor(anchors[0]) then Some(0)
    else
      var rest := anchors[1..];
      assert anchors == [anchors[0]] + rest;
      match FindNext(rest)
      case None => None
      case Some(k) =>
        assert anchors[k + 1] == rest[k];
        Some(k + 1)
  }

  /** Absolute hrefs (those starting with "http") are kept, others resolved against `BaseUrl`. */
  function ResolveHref(resolve: Resolver, href: string): (r: Option<string>)
    ensures StartsWith(href, "http") ==> r == Some(href)
    ensures !StartsWith(href, "http") ==> r == resolve(href)
  {
    if StartsWith(href, "http") then Some(href) else resolve(href)
  }

  /** One step of the walk from `u`: the URL of the next page, or `None` when the walk
      ends there (fetch error, no "next" anchor, an empty `href`, or a resolution error). */
  function Step(fetch: PageFetch, resolve: Resolver, u: string): (r: Option<string>)
    ensures fetch(u).None? ==> r.None?
    ensures (fetch(u).Some? && forall k :: 0 <= k < |fetch(u).value.anchors| ==> !IsNextAnchor(fetch(u).value.anchors[k]))
            ==> r.None?
  {
    match fetch(u)
    case None => None
    case Some(page) =>
      match FindNext(page.anchors)
      case None => None
      case Some(k) =>
        var href := page.anchors[k].href;
        if href == "" then None else ResolveHref(resolve, href)
  }

  /** A fetched page whose first "next" anchor is the `k`-th leads to that anchor's resolved
      `href`, and nowhere when the `href` is empty. */
  lemma StepFollowsFirstNext(fetch: PageFetch, resolve: Resolver, u: string, k: nat)
    requires fetch(u).Some? && k < |fetch(u).value.anchors| && IsNextAnchor(fetch(u).value.anchors[k])
    requires forall j :: 0 <= j < k ==> !IsNextAnchor(fetch(u).value.anchors[j])
    ensures var href := fetch(u).value.anchors[k].href;
            Step(fetch, resolve, u) == if href == "" then None else ResolveHref(resolve, href)
  {
    FirstNextFound(fetch(u).value.anchors, k);
  }

  /** The first "next" anchor is the one `FindNext` finds. */
  lemma FirstNextFound(anchors: seq<Anchor>, k: nat)
    requires k < |anchors| && IsNextAnchor(anchors[k])
    requires forall j :: 0 <= j < k ==> !IsNextAnchor(anchors[j])
    ensures FindNext(anchors) == Some(k)
  {
    var r := FindNext(anchors);
    assert r.Some?;
    assert !(r.value < k);
    assert !(k < r.value);
  }

  /** The URL reached from `u` after `n` successful steps of `next`, if the walk gets that far. */
  function Hop(next: string -> Option<string>, u: string, n: nat): Option<string>
    decreases n
  {
    if n == 0 then Some(u)
    else match next(u)
      case None => None
      case Some(v) => Hop(next, v, n - 1)
  }

  /** The "find the last page" loop, with at most `fuel` steps: the result is reached from `u`
      by some number of steps, and unless the fuel ran out no step leads on from it. */
  function Walk(next: string -> Option<string>, u: string, fuel: nat): (r: string)
    ensures exists n :: (0 <= n <= fuel && Hop(next, u, n) == Some(r)
                         && (n < fuel ==> next(r).None?))
    ensures r == u || exists v :: next(v) == Some(r)
    decreases fuel
  {
    if fuel == 0 then
      assert Hop(next, u, 0) == Some(u);
      u
    else match next(u)
      case None =>
        assert Hop(next, u, 0) == Some(u);
        u
      case Some(v) =>
        var r := Walk(next, v, fuel - 1);
        assert exists n :: (0 <= n <= fuel && Hop(next, u, n) == Some(r)
                            && (n < fuel ==> next(r).None?)) by {
          var m :| 0 <= m <= fuel - 1 && Hop(next, v, m) == Some(r)
            && (m < fuel - 1 ==> next(r).None?);
          assert Hop(next, u, m + 1) == Some(r);
        }
        r
  }

  /** The walk stops at the first page that has no next step: when the first `k` steps
      succeed, step `k` fails and the fuel allows `k` steps, the result is the `k`-th URL. */
  lemma {:induction false} WalkStopsAtFirstEnd(next: string -> Option<string>, u: string, fuel: nat, k: nat)
    requires k <= fuel
    requires Hop(next, u, k).Some?
    requires next(Hop(next, u, k).value).None?
    ensures Walk(next, u, fuel) == Hop(next, u, k).value
    decreases k
  {
    if k > 0 {
      var v := next(u).value;
      assert Hop(next, u, k) == Hop(next, v, k - 1);
      WalkStopsAtFirstEnd(next, v, fuel - 1, k - 1);
    }
  }

  /** Phase 1 of the harvester: walk from `BaseUrl`; the result is `BaseUrl` or the resolved
      "next" link of some page. */
  function FindLastPage(fetch: PageFetch, resolve: Resolver, fuel: nat): (r: string)
    ensures r == BaseUrl || exists v :: Step(fetch, resolve, v) == Some(r)
  {
    Walk(u => Step(fetch, resolve, u), BaseUrl, fuel)
  }

  /** The regular expression `page\/(\d+)` matches at index `i` of `s`. */
  predicate PageMatchAt(s: string, i: int) {
    0 <= i && i + 6 <= |s| && s[i..i + 5] == "page/" && IsDigit(s[i + 5])
  }

  /** The longest run of digits at the front of `s`: what `\d+` captures. */
  function DigitRun(s: string): (r: string)
    ensures AllDigits(r) && |r| <= |s| && r == s[..|r|]
    ensures |r| < |s| ==> !IsDigit(s[|r|])
  {
    if s != [] && IsDigit(s[0]) then [s[0]] + DigitRun(s[1..]) else []
  }

  /** The number the first match of `page\/(\d+)` in `s` captures, if any. */
  function FindPageNumber(s: string): (r: Option<nat>)
    ensures r.None? <==> forall i :: !PageMatchAt(s, i)
    ensures r.Some? ==> exists i :: (PageMatchAt(s, i) && (forall j :: 0 <= j < i ==> !PageMatchAt(s, j))
                                     && r.value == ParseDecimal(DigitRun(s[i + 5..])))
    decreases |s|
  {
    if |s| < 6 then
      assert forall i :: !PageMatchAt(s, i);
      None
    else if s[..5] == "page/" && IsDigit(s[5]) then
      assert PageMatchAt(s, 0);
      Some(ParseDecimal(DigitRun(s[5..])))
    else
      var r := FindPageNumber(s[1..]);
      assert !PageMatchAt(s, 0);
      PageMatchShift(s);
      if r.Some? then
        FirstPageMatchShift(s, r.value);
        r
      else
        assert forall i :: PageMatchAt(s, i) ==> PageMatchAt(s[1..], i - 1);
        r
  }

  /** A match in `s[1..]` at `i` is a match in `s` at `i + 1`, and conversely. */
  lemma PageMatchShift(s: string)
    requires s != [] && !PageMatchAt(s, 0)
    ensures forall i :: PageMatchAt(s[1..], i) <==> PageMatchAt(s, i + 1)
  {
    forall i ensures PageMatchAt(s[1..], i) <==> PageMatchAt(s, i + 1) {
      if 0 <= i && i + 7 <= |s| {
        assert s[1..][i..i + 5] == s[i + 1..i + 6];
        assert s[1..][i + 5] == s[i + 6];
      }
    }
  }

  /** The first match in `s[1..]` is the first match in `s` when `s` does not match at 0. */
  lemma FirstPageMatchShift(s: string, n: nat)
    requires s != [] && !PageMatchAt(s, 0)
    requires exists i :: (PageMatchAt(s[1..], i) && (forall j :: 0 <= j < i ==> !PageMatchAt(s[1..], j))
                          && n == ParseDecimal(DigitRun(s[1..][i + 5..])))
    ensures exists i :: (PageMatchAt(s, i) && (forall j :: 0 <= j < i ==> !PageMatchAt(s, j))
                         && n == ParseDecimal(DigitRun(s[i + 5..])))
  {
    PageMatchShift(s);
    var i :| PageMatchAt(s[1..], i) && (forall j :: 0 <= j < i ==> !PageMatchAt(s[1..], j))
      && n == ParseDecimal(DigitRun(s[1..][i + 5..]));
    assert s[1..][i + 5..] == s[i + 6..];
    forall j | 0 <= j < i + 1 ensures !PageMatchAt(s, j) {
      if j > 0 { assert !PageMatchAt(s[1..], j - 1); }
    }
    assert PageMatchAt(s, i + 1);
  }

  /** `lastPageNum`: the captured number, or 1 when the URL has no `page/<digits>`. */
  function LastPageNumber(lastUrl: string): nat {
    match FindPageNumber(lastUrl)
    case Some(n) => n
    case None => 1
  }

  /** `pagesToScrape`: the last page, and the one before it when there is one. */
  function PagesToScrape(n: nat): (r: seq<nat>)
    ensures 1 <= |r| <= 2 && r[0] == n
    ensures |r| == 2 <==> n > 1
    ensures |r| == 2 ==> r[1] == n - 1
  {
    if n > 1 then [n, n - 1] else [n]
  }

  /** The listing URL of page `n`: `BaseUrl` itself for page 1. */
  function PageUrl(n: nat): (r: string)
    ensures StartsWith(r, BaseUrl)
    ensures r == BaseUrl <==> n == 1
  {
    if n == 1 then BaseUrl else BaseUrl + "page/" + NatToString(n) + "/"
  }

  /** `BaseUrl` after its first four letters; it has no letter "p". */
  const BaseUrlTail: string := "s://beyondchats.com/blogs/"

  lemma BaseUrlTailHasNoP()
    ensures 'p' !in BaseUrlTail
  {
  }

  /** `BaseUrl` is "http" followed by `BaseUrlTail`. */
  lemma BaseUrlSplit()
    ensures BaseUrl == "http" + BaseUrlTail
  {
  }

  /** The only "p" of `BaseUrl` is the one of "https". */
  lemma BaseUrlLetterP()
    ensures forall i :: 0 <= i < |BaseUrl| && BaseUrl[i] == 'p' ==> i == 3
  {
    BaseUrlSplit();
    BaseUrlTailHasNoP();
    forall i | 4 <= i < |BaseUrl| ensures BaseUrl[i] != 'p' {
      assert BaseUrl[i] == BaseUrlTail[i - 4];
    }
  }

  /** No match of `page\/(\d+)` starts inside `BaseUrl`, whatever follows it. */
  lemma NoMatchInBase(s: string)
    requires StartsWith(s, BaseUrl)
    ensures forall i :: 0 <= i < |BaseUrl| ==> !PageMatchAt(s, i)
  {
    BaseUrlLetterP();
    forall i | 0 <= i < |BaseUrl| ensures !PageMatchAt(s, i) {
      if i + 6 <= |s| {
        assert s[i..i + 5][0] == s[i] == BaseUrl[i];
        if i == 3 {
          assert s[i..i + 5][1] == s[4] == BaseUrl[4] == 's';
        } else {
          assert BaseUrl[i] != 'p';
        }
      }
    }
  }

  /** Reading the page number back from a page's listing URL gives the page. */
  lemma {:induction false} LastPageNumberOfPageUrl(n: nat)
    ensures LastPageNumber(PageUrl(n)) == n
  {
    var s := PageUrl(n);
    NoMatchInBase(s);
    if n == 1 {
      assert forall i :: !PageMatchAt(s, i);
    } else {
      var d := NatToString(n);
      PageUrlMatch(n);
      var r := FindPageNumber(s);
      var i :| PageMatchAt(s, i) && (forall j :: 0 <= j < i ==> !PageMatchAt(s, j))
        && r.value == ParseDecimal(DigitRun(s[i + 5..]));
      assert i == |BaseUrl|;
      DigitRunOfDigits(d, "/");
      ParseNatToString(n);
    }
  }

  /** The URL of a page other than the first holds "page/" and the page's digits right
      after the base URL. */
  lemma PageUrlMatch(n: nat)
    requires n != 1
    ensures PageMatchAt(PageUrl(n), |BaseUrl|)
    ensures PageUrl(n)[|BaseUrl| + 5..] == NatToString(n) + "/"
  {
    var s := PageUrl(n);
    var d := NatToString(n);
    assert s == BaseUrl + "page/" + d + "/";
    assert s[|BaseUrl|..|BaseUrl| + 5] == "page/";
    assert s[|BaseUrl| + 5] == d[0];
  }

  /** The digit run of digits followed by a non-digit is those digits. */
  lemma {:induction false} DigitRunOfDigits(d: string, rest: string)
    requires AllDigits(d)
    requires rest == [] || !IsDigit(rest[0])
    ensures DigitRun(d + rest) == d
    decreases |d|
  {
    if d != [] {
      assert (d + rest)[1..] == d[1..] + rest;
      DigitRunOfDigits(d[1..], rest);
    } else {
      assert d + rest == rest;
    }
  }
}

=== FILE: llm.dfy ===
/** The text-rewrite step around the opaque language-model call: inputs are capped before
    the call, and the reply is unwrapped from a code fence, trimmed and length-checked. */
module Llm {
  import opened Wrappers
  import opened Text
  import opened Seqs

  const DraftLimit: nat := 5000
  const SourceLimit: nat := 4000
  /** Replies shorter than this, after cleaning, count as empty. */
  const MinLength: nat := 50
  const FailurePrefix: string := "LLM Generation Failed: "
  const EmptyReply: string := "LLM returned empty response"
  const OpeningFence: string := "```html"
  const ClosingFence: string := "```"

  /** The model call for the (capped) draft and two research texts: the reply text, or the
      message of the error it raised. The prompt wording around the three texts is fixed. */
  type Generator = (string, string, string) -> Result<string, string>

  /** The three texts the prompt is built from. */
  datatype PromptInputs = PromptInputs(draft: string, research1: string, research2: string)

  /** `(x || "").substring(0, limit)` for the draft and both research texts. */
  function CapInputs(original: Option<string>, ref1: Option<string>, ref2: Option<string>): (p: PromptInputs)
    ensures StartsWith(original.GetOr(""), p.draft) && |p.draft| == Min(|original.GetOr("")|, DraftLimit)
    ensures StartsWith(ref1.GetOr(""), p.research1) && |p.research1| == Min(|ref1.GetOr("")|, SourceLimit)
    ensures StartsWith(ref2.GetOr(""), p.research2) && |p.research2| == Min(|ref2.GetOr("")|, SourceLimit)
    ensures original.None? ==> p.draft == ""
  {
    PromptInputs(Take(original.GetOr(""), DraftLimit), Take(ref1.GetOr(""), SourceLimit),
                 Take(ref2.GetOr(""), SourceLimit))
  }

  /** `text.replace(/^```html/, '')`. */
  function StripOpeningFence(text: string): (r: string)
    ensures StartsWith(text, OpeningFence) ==> text == OpeningFence + r
    ensures !StartsWith(text, OpeningFence) ==> r == text
  {
    if StartsWith(text, OpeningFence) then
      assert text == text[..|OpeningFence|] + text[|OpeningFence|..];
      text[|OpeningFence|..]
    else text
  }

  /** `text.replace(/```$/, '')`: `$` without the `m` flag matches only at the very end. */
  function StripClosingFence(text: string): (r: string)
    ensures EndsWith(text, ClosingFence) ==> text == r + ClosingFence
    ensures !EndsWith(text, ClosingFence) ==> r == text
  {
    if EndsWith(text, ClosingFence) then
      assert text == text[..|text| - |ClosingFence|] + text[|text| - |ClosingFence|..];
      text[..|text| - |ClosingFence|]
    else text
  }

  /** The reply cleaned of one opening and one closing fence and of surrounding white space. */
  function CleanReply(text: string): (r: string)
    ensures IsTrimmed(r) && |r| <= |text|
  {
    Trim(StripClosingFence(StripOpeningFence(text)))
  }

  /** A trimmed reply that neither starts nor ends with a backtick comes back unchanged. */
  lemma CleanKeepsPlain(text: string)
    requires text != [] && text[0] != '`' && text[|text| - 1] != '`' && IsTrimmed(text)
    ensures CleanReply(text) == text
  {
    if |OpeningFence| <= |text| {
      assert text[..|OpeningFence|][0] == text[0];
    }
    if |ClosingFence| <= |text| {
      assert text[|text| - |ClosingFence|..][|ClosingFence| - 1] == text[|text| - 1];
    }
    TrimPadded("", text, "");
    assert "" + text + "" == text;
  }

  /** Surrounding white space around a trimmed text is exactly what `Trim` removes. */
  lemma {:induction false} TrimPadded(pre: string, body: string, post: string)
    requires AllSpace(pre) && AllSpace(post) && IsTrimmed(body)
    ensures Trim(pre + body + post) == body
  {
    assert pre + body + post == pre + (body + post);
    if body == [] {
      assert pre + body + post == pre + post;
      TrimStartAllSpace(pre + post);
    } else {
      TrimStartPadded(pre, body + post);
      TrimEndPadded(body, post);
    }
  }

  lemma {:induction false} TrimStartAllSpace(s: string)
    requires AllSpace(s)
    ensures TrimStart(s) == []
  {
    if s != [] {
      TrimStartAllSpace(s[1..]);
    }
  }

  lemma {:induction false} TrimStartPadded(pre: string, rest: string)
    requires AllSpace(pre) && (rest == [] || !IsSpace(rest[0]))
    ensures TrimStart(pre + rest) == rest
  {
    if pre != [] {
      assert (pre + rest)[1..] == pre[1..] + rest;
      TrimStartPadded(pre[1..], rest);
    } else {
      assert pre + rest == rest;
    }
  }

  lemma {:induction false} TrimEndPadded(body: string, post: string)
    requires AllSpace(post) && (body == [] || !IsSpace(body[|body| - 1]))
    ensures TrimEnd(body + post) == body
    decreases |post|
  {
    if post != [] {
      var post' := post[..|post| - 1];
      assert (body + post)[|body + post| - 1] == post[|post| - 1];
      assert (body + post)[..|body + post| - 1] == body + post';
      TrimEndPadded(body, post');
    } else {
      assert body + post == body;
    }
  }

  /** Cleaning unwraps a fenced reply: the text inside "```html" and "```", without the
      white space around it, comes back unchanged. */
  lemma {:induction false} CleanUnwrapsFence(pre: string, body: string, post: string)
    requires AllSpace(pre) && AllSpace(post) && IsTrimmed(body)
    ensures CleanReply(OpeningFence + pre + body + post + ClosingFence) == body
  {
    var inner := pre + body + post;
    var text := OpeningFence + inner + ClosingFence;
    assert text == OpeningFence + (inner + ClosingFence);
    assert OpeningFence + pre + body + post + ClosingFence == text;
    assert StartsWith(text, OpeningFence);
    var r := StripOpeningFence(text);
    assert text[|OpeningFence|..] == inner + ClosingFence;
    assert r == inner + ClosingFence;
    assert EndsWith(inner + ClosingFence, ClosingFence);
    assert StripClosingFence(inner + ClosingFence) == inner;
    TrimPadded(pre, body, post);
  }

  /** `rewriteArticle`: either a cleaned reply of at least `MinLength` characters, or an error
      whose message starts with "LLM Generation Failed: ". */
  function Rewrite(original: Option<string>, ref1: Option<string>, ref2: Option<string>,
                   generate: Generator): (r: Result<string, string>)
    ensures r.Success? ==> |r.value| >= MinLength && IsTrimmed(r.value)
    ensures r.Failure? ==> StartsWith(r.error, FailurePrefix)
    ensures var p := CapInputs(original, ref1, ref2);
            var reply := generate(p.draft, p.research1, p.research2);
            && (reply.Failure? ==> r == Failure(FailurePrefix + reply.error))
            && (reply.Success? && |CleanReply(reply.value)| < MinLength ==> r == Failure(FailurePrefix + EmptyReply))
            && (reply.Success? && |CleanReply(reply.value)| >= MinLength ==> r == Success(CleanReply(reply.value)))
  {
    var p := CapInputs(original, ref1, ref2);
    match generate(p.draft, p.research1, p.research2)
    case Failure(e) =>
      assert (FailurePrefix + e)[..|FailurePrefix|] == FailurePrefix;
      Failure(FailurePrefix + e)
    case Success(text) =>
      var cleaned := CleanReply(text);
      if |cleaned| < MinLength then
        assert (FailurePrefix + EmptyReply)[..|FailurePrefix|] == FailurePrefix;
        Failure(FailurePrefix + EmptyReply)
      else Success(cleaned)
  }
}

=== FILE: seqs.dfy ===
/** Generic facts about sequences used by the harvest and enhancement stages. */
module Seqs {

  /** `a` can be obtained from `b` by deleting elements: `a` keeps `b`'s relative order. */
  predicate IsSubseq<T(==)>(a: seq<T>, b: seq<T>)
    decreases |b|
  {
    if a == [] then true
    else if b == [] then false
    else if a[|a| - 1] == b[|b| - 1] then IsSubseq(a[..|a| - 1], b[..|b| - 1])
    else IsSubseq(a, b[..|b| - 1])
  }

  /** Appending to the larger sequence keeps a subsequence a subsequence. */
  lemma {:induction false} SubseqExtend<T>(a: seq<T>, b: seq<T>, x: T)
    requires IsSubseq(a, b)
    ensures IsSubseq(a, b + [x])
    decreases |b|, 1
  {
    var b' := b + [x];
    assert b'[..|b'| - 1] == b;
    if a != [] && a[|a| - 1] == x {
      SubseqDropLast(a, b);
    }
  }

  /** Dropping the last element of a subsequence leaves a subsequence. */
  lemma {:induction false} SubseqDropLast<T>(a: seq<T>, b: seq<T>)
    requires a != [] && IsSubseq(a, b)
    ensures IsSubseq(a[..|a| - 1], b)
    decreases |b|, 0
  {
    var a', b' := a[..|a| - 1], b[..|b| - 1];
    if a[|a| - 1] == b[|b| - 1] {
      SubseqExtend(a', b', b[|b| - 1]);
    } else {
      SubseqDropLast(a, b');
      SubseqExtend(a', b', b[|b| - 1]);
    }
    assert b' + [b[|b| - 1]] == b;
  }

  /** Every element of a subsequence occurs in the larger sequence. */
  lemma {:induction false} SubseqElements<T>(a: seq<T>, b: seq<T>)
    requires IsSubseq(a, b)
    ensures forall x :: x in a ==> x in b
    decreases |b|
  {
    if a != [] {
      var b' := b[..|b| - 1];
      if a[|a| - 1] == b[|b| - 1] {
        SubseqElements(a[..|a| - 1], b');
        assert a == a[..|a| - 1] + [a[|a| - 1]];
      } else {
        SubseqElements(a, b');
      }
    }
  }

  function Min(a: nat, b: nat): nat {
    if a < b then a else b
  }

  /** `s.slice(0, n)` and `s.substring(0, n)` for a non-negative `n`: the first min(n, |s|) elements. */
  function Take<T>(s: seq<T>, n: nat): (r: seq<T>)
    ensures |r| == Min(|s|, n)
    ensures r == s[..|r|]
  {
    if |s| <= n then s else s[..n]
  }

  /** When `a + b` and `p + q` are the same sequence and `p` holds an element `y` that `a` does not,
      `a` lies inside `p`, so every element of `a` is in `p`. */
  lemma SplitKeepsEarlier<T>(a: seq<T>, b: seq<T>, p: seq<T>, q: seq<T>, x: T, y: T)
    requires a + b == p + q && x in a && y !in a && y in p
    ensures x in p
  {
    var k :| 0 <= k < |p| && p[k] == y;
    assert (p + q)[k] == y;
    assert forall m :: 0 <= m < |a| ==> (a + b)[m] == a[m] && a[m] != y;
    assert k >= |a|;
    var m :| 0 <= m < |a| && a[m] == x;
    assert p[m] == (p + q)[m] == (a + b)[m];
  }

  lemma AppendAssoc<T>(x: seq<T>, y: seq<T>, z: seq<T>)
    ensures x + (y + z) == (x + y) + z
  {
  }
}

=== FILE: slugs.dfy ===
/** Slug derivation: lower-case the title, turn every run of characters outside
    `[a-z0-9]` into one hyphen, then drop a leading and a trailing hyphen. */
module Slugs {
  import opened Text

  /** A character of the class `[a-z0-9]`. */
  predicate IsWordChar(c: char) {
    'a' <= c <= 'z' || '0' <= c <= '9'
  }

  /** The `[a-z0-9]` characters of `s`, in order. */
  function WordChars(s: string): string {
    if s == [] then [] else (if IsWordChar(s[0]) then [s[0]] else []) + WordChars(s[1..])
  }

  lemma {:induction false} WordCharsAppend(a: string, b: string)
    ensures WordChars(a + b) == WordChars(a) + WordChars(b)
  {
    if a != [] {
      assert (a + b)[1..] == a[1..] + b;
      WordCharsAppend(a[1..], b);
    } else {
      assert a + b == b;
    }
  }

  /** Only `[a-z0-9]` and single hyphens. */
  predicate Collapsed(s: string) {
    && (forall k :: 0 <= k < |s| ==> IsWordChar(s[k]) || s[k] == '-')
    && (forall k :: 0 <= k < |s| - 1 ==> s[k] == '-' ==> s[k + 1] != '-')
  }

  /** A well-formed slug: `[a-z0-9]` words separated by single hyphens. */
  predicate IsSlug(s: string) {
    Collapsed(s) && (s == [] || (s[0] != '-' && s[|s| - 1] != '-'))
  }

  /** Drops the run of non-`[a-z0-9]` characters at the front of `s`. */
  function SkipRun(s: string): (r: string)
    ensures |r| <= |s| && r == s[|s| - |r|..]
    ensures r == [] || IsWordChar(r[0])
  {
    if s != [] && !IsWordChar(s[0]) then
      var r := SkipRun(s[1..]);
      assert s[1..][|s| - 1 - |r|..] == s[|s| - |r|..];
      r
    else s
  }

  /** Skipping a run of other characters loses no `[a-z0-9]` character. */
  lemma {:induction false} SkipRunWordChars(s: string)
    ensures WordChars(SkipRun(s)) == WordChars(s)
  {
    if s != [] && !IsWordChar(s[0]) {
      SkipRunWordChars(s[1..]);
      assert WordChars(s) == [] + WordChars(s[1..]);
    }
  }

  /** `s.replace(/[^a-z0-9]+/g, "-")`: every maximal run of other characters becomes one hyphen. */
  function Collapse(s: string): (r: string)
    ensures Collapsed(r)
    ensures r == [] <==> s == []
    ensures r != [] ==> (r[0] == '-' <==> !IsWordChar(s[0]))
    ensures WordChars(r) == WordChars(s)
    decreases |s|
  {
    if s == [] then []
    else if IsWordChar(s[0]) then
      var t := Collapse(s[1..]);
      assert WordChars([s[0]] + t) == [s[0]] + WordChars(t);
      [s[0]] + t
    else
      var t := Collapse(SkipRun(s[1..]));
      SkipRunWordChars(s[1..]);
      assert WordChars("-" + t) == WordChars(t);
      "-" + t
  }

  /** `s.replace(/^-|-$/g, "")`: one hyphen removed at each end. */
  function TrimHyphens(s: string): (r: string)
    ensures r == s || (|s| >= 1 && (r == s[1..] || r == s[..|s| - 1])) || (|s| >= 2 && r == s[1..|s| - 1])
    ensures s != [] && s[0] != '-' && s[|s| - 1] != '-' ==> r == s
    ensures |s| >= 2 && s[0] == '-' && s[|s| - 1] == '-' ==> r == s[1..|s| - 1]
    ensures s != [] && s[0] == '-' && s[|s| - 1] != '-' ==> r == s[1..]
    ensures s != [] && s[0] != '-' && s[|s| - 1] == '-' ==> r == s[..|s| - 1]
    ensures s == "-" ==> r == []
    ensures Collapsed(s) ==> IsSlug(r)
    ensures WordChars(r) == WordChars(s)
  {
    var a := if s != [] && s[0] == '-' then s[1..] else s;
    var r := if a != [] && a[|a| - 1] == '-' then a[..|a| - 1] else a;
    TrimmedIsSlug(s, a, r);
    if a != [] && a[|a| - 1] == '-' then
      WordCharsAppend(a[..|a| - 1], [a[|a| - 1]]);
      assert a[..|a| - 1] + [a[|a| - 1]] == a;
      r
    else r
  }

  /** Dropping one hyphen at each end of a collapsed text leaves a slug. */
  lemma TrimmedIsSlug(s: string, a: string, r: string)
    requires a == if s != [] && s[0] == '-' then s[1..] else s
    requires r == if a != [] && a[|a| - 1] == '-' then a[..|a| - 1] else a
    ensures Collapsed(s) ==> IsSlug(r)
  {
    if Collapsed(s) {
      var d := if s != [] && s[0] == '-' then 1 else 0;
      var e := d + |r|;
      assert r == s[d..e];
      CollapsedSlice(s, d, e);
      if r != [] {
        assert r[0] == s[d];
        assert d == 1 ==> s[0] == '-';
        assert r[|r| - 1] == s[e - 1];
        assert e < |s| ==> s[e] == '-';
      }
    }
  }

  /** Any slice of a collapsed text is collapsed. */
  lemma CollapsedSlice(s: string, i: nat, j: nat)
    requires Collapsed(s) && i <= j <= |s|
    ensures Collapsed(s[i..j])
  {
    var t := s[i..j];
    assert forall k :: 0 <= k < |t| ==> t[k] == s[i + k];
  }

  /** The slug the harvester stores an article under (titles restricted to the ASCII lower-casing). */
  function Slugify(title: string): (r: string)
    ensures IsSlug(r)
    ensures WordChars(r) == WordChars(Lower(title))
  {
    TrimHyphens(Collapse(Lower(title)))
  }

  /** A collapsed string is its own collapse. */
  lemma {:induction false} CollapseFixed(s: string)
    requires Collapsed(s)
    ensures Collapse(s) == s
    decreases |s|
  {
    if s != [] {
      if IsWordChar(s[0]) {
        CollapseFixed(s[1..]);
      } else {
        assert SkipRun(s[1..]) == s[1..];
        CollapseFixed(s[1..]);
      }
    }
  }

  /** Slugifying a slug gives it back. */
  lemma {:induction false} SlugifyIdempotent(title: string)
    ensures Slugify(Slugify(title)) == Slugify(title)
  {
    var s := Slugify(title);
    assert Lower(s) == s;
    CollapseFixed(s);
  }

  /** The slug is empty exactly when the lower-cased title has no `[a-z0-9]` character,
      so all such titles share the one slug "". */
  lemma {:induction false} SlugEmptyIff(title: string)
    ensures Slugify(title) == [] <==> WordChars(Lower(title)) == []
  {
    var s := Slugify(title);
    if s != [] {
      assert IsWordChar(s[0]);
      assert WordChars(s) == [s[0]] + WordChars(s[1..]);
    }
  }

  /** A non-empty run of `[a-z0-9]` characters. */
  predicate IsWord(w: string) {
    w != [] && forall k :: 0 <= k < |w| ==> IsWordChar(w[k])
  }

  /** The longest prefix of `s` made of `[a-z0-9]` characters. */
  function WordRun(s: string): (r: string)
    ensures |r| <= |s|
    ensures s != [] && IsWordChar(s[0]) ==> r != []
  {
    if s != [] && IsWordChar(s[0]) then [s[0]] + WordRun(s[1..]) else []
  }

  /** The run is a prefix of `s`, all of it word characters, and cannot be extended. */
  lemma {:induction false} WordRunMaximal(s: string)
    ensures var r := WordRun(s);
            && r == s[..|r|] && (forall k :: 0 <= k < |r| ==> IsWordChar(r[k]))
            && (|r| < |s| ==> !IsWordChar(s[|r|]))
  {
    if s != [] && IsWordChar(s[0]) {
      WordRunMaximal(s[1..]);
    }
  }

  /** Reference definition: the maximal runs of `[a-z0-9]` characters of `s`, in order. */
  function Words(s: string): seq<string>
    decreases |s|
  {
    if s == [] then []
    else if !IsWordChar(s[0]) then Words(s[1..])
    else
      var w := WordRun(s);
      [w] + Words(s[|w|..])
  }

  /** Every part `Words` returns is a non-empty run of word characters. */
  lemma {:induction false} WordsAreWords(s: string)
    ensures forall i :: 0 <= i < |Words(s)| ==> IsWord(Words(s)[i])
    decreases |s|
  {
    if s != [] {
      WordsAreWords(s[1..]);
      if IsWordChar(s[0]) {
        var w := WordRun(s);
        WordRunMaximal(s);
        WordsAreWords(s[|w|..]);
        assert Words(s) == [w] + Words(s[|w|..]);
      }
    }
  }

  /** A string has no words exactly when it has no `[a-z0-9]` character. */
  lemma {:induction false} WordsEmpty(s: string)
    ensures Words(s) == [] <==> forall k :: 0 <= k < |s| ==> !IsWordChar(s[k])
  {
    if s != [] && !IsWordChar(s[0]) {
      WordsEmpty(s[1..]);
      assert forall k :: 1 <= k < |s| ==> s[k] == s[1..][k - 1];
    }
  }

  /** Skipping leading other characters does not change the words. */
  lemma {:induction false} WordsSkipRun(s: string)
    ensures Words(SkipRun(s)) == Words(s)
  {
    if s != [] && !IsWordChar(s[0]) {
      WordsSkipRun(s[1..]);
    }
  }

  /** A hyphen when `s` starts with a character outside `[a-z0-9]`. */
  function Lead(s: string): string {
    if s != [] && !IsWordChar(s[0]) then "-" else ""
  }

  /** A hyphen when `s` has a word and ends with a character outside `[a-z0-9]`. */
  function Trail(s: string): string {
    if s != [] && !IsWordChar(s[|s| - 1]) && Words(s) != [] then "-" else ""
  }

  /** The collapsed text is the words of `s` joined by single hyphens, with one more hyphen
      for other characters before the first word and one after the last. */
  lemma {:induction false} CollapseWords(s: string)
    ensures Collapse(s) == Lead(s) + Join("-", Words(s)) + Trail(s)
    decreases |s|, 1
  {
    if s == [] {
    } else if !IsWordChar(s[0]) {
      CollapseWordsOther(s);
    } else if |s| == 1 {
      assert WordRun(s) == s;
      assert Words(s) == [s] + Words([]);
      assert Collapse(s) == s + Collapse([]);
    } else if IsWordChar(s[1]) {
      CollapseWordsInWord(s);
    } else {
      CollapseWordsEndOfWord(s);
    }
  }

  lemma {:induction false} CollapseWordsOther(s: string)
    requires s != [] && !IsWordChar(s[0])
    ensures Collapse(s) == Lead(s) + Join("-", Words(s)) + Trail(s)
    decreases |s|, 0
  {
    var u := SkipRun(s[1..]);
    OtherWords(s);
    OtherTrail(s);
    CollapseWords(u);
    CollapseOtherStep(s);
    var j := Join("-", Words(u));
    assert Lead(u) == "";
    HyphenBeforeParts(Collapse(s), "-", Collapse(u), Lead(u), j, Trail(u));
  }

  /** One unfolding of `Collapse` at a leading other character. */
  lemma CollapseOtherStep(s: string)
    requires s != [] && !IsWordChar(s[0])
    ensures Collapse(s) == "-" + Collapse(SkipRun(s[1..]))
  {
  }

  /* The three steps below rebuild `Collapse(s) == Lead(s) + Join(..) + Trail(s)` from the same
     equation for the rest of `s`. In each, `whole == head + rest` is one unfolding of `Collapse`,
     and `rest == lead + join + trail` is the equation for the rest. */

  /** A run of other characters at the front: the hyphen it becomes is the lead of the whole,
      and the rest starts with a word, so it has no lead of its own. */
  lemma HyphenBeforeParts(whole: string, hyphen: string, rest: string, lead: string, join: string, trail: string)
    requires whole == hyphen + rest && rest == lead + join + trail && lead == ""
    ensures whole == hyphen + join + trail
  {
  }

  /** A word character followed by another: it becomes the first character of the joined words. */
  lemma CharJoinsFirstWord(whole: string, c: string, rest: string, lead: string, join: string, trail: string)
    requires whole == c + rest && rest == lead + join + trail && lead == ""
    ensures whole == "" + (c + join) + trail
  {
  }

  /** A word character followed by another character: it is a one-character word, and the
      hyphen leading the rest becomes the separator after it. */
  lemma CharBecomesFirstWord(whole: string, c: string, rest: string, lead: string, join: string, trail: string,
                             join2: string, trail2: string)
    requires whole == c + rest && rest == lead + join + trail && lead == "-"
    requires join2 + trail2 == c + "-" + join + trail
    ensures whole == "" + join2 + trail2
  {
    calc {
      whole;
      c + (("-" + join) + trail);
      { assert c + (("-" + join) + trail) == ((c + "-") + join) + trail; }
      c + "-" + join + trail;
    }
  }

  /** Skipping a leading run of other characters keeps the words. */
  lemma OtherWords(s: string)
    requires s != [] && !IsWordChar(s[0])
    ensures Words(s) == Words(SkipRun(s[1..]))
  {
    WordsSkipRun(s[1..]);
  }

  /** Skipping a leading run of other characters keeps the trail. */
  lemma OtherTrail(s: string)
    requires s != [] && !IsWordChar(s[0])
    ensures Trail(s) == Trail(SkipRun(s[1..]))
  {
    var u := SkipRun(s[1..]);
    OtherWords(s);
    if u != [] {
      assert u[|u| - 1] == s[|s| - 1];
    }
  }

  lemma {:induction false} CollapseWordsInWord(s: string)
    requires |s| >= 2 && IsWordChar(s[0]) && IsWordChar(s[1])
    ensures Collapse(s) == Lead(s) + Join("-", Words(s)) + Trail(s)
    decreases |s|, 0
  {
    var rest := s[1..];
    CollapseWords(rest);
    CollapseWordStep(s);
    InWordParts(s);
    CharJoinsFirstWord(Collapse(s), [s[0]], Collapse(rest), Lead(rest), Join("-", Words(rest)), Trail(rest));
  }

  lemma {:induction false} CollapseWordsEndOfWord(s: string)
    requires |s| >= 2 && IsWordChar(s[0]) && !IsWordChar(s[1])
    ensures Collapse(s) == Lead(s) + Join("-", Words(s)) + Trail(s)
    decreases |s|, 0
  {
    var rest := s[1..];
    CollapseWords(rest);
    CollapseWordStep(s);
    EndOfWordParts(s);
    CharBecomesFirstWord(Collapse(s), [s[0]], Collapse(rest), Lead(rest), Join("-", Words(rest)), Trail(rest),
      Join("-", Words(s)), Trail(s));
  }

  /** One unfolding of `Collapse` at a leading `[a-z0-9]` character. */
  lemma CollapseWordStep(s: string)
    requires s != [] && IsWordChar(s[0])
    ensures Collapse(s) == [s[0]] + Collapse(s[1..])
  {
  }

  /** Inside a word, the first character joins the first word of the rest. */
  lemma {:induction false} InWordParts(s: string)
    requires |s| >= 2 && IsWordChar(s[0]) && IsWordChar(s[1])
    ensures Lead(s) == "" && Lead(s[1..]) == ""
    ensures Join("-", Words(s)) == [s[0]] + Join("-", Words(s[1..]))
    ensures Trail(s) == Trail(s[1..])
  {
    var c := s[0];
    var rest := s[1..];
    var w := WordRun(rest);
    var tail := Words(rest[|w|..]);
    assert Words(rest) == [w] + tail;
    assert WordRun(s) == [c] + w;
    assert s[|[c] + w|..] == rest[|w|..];
    assert Words(s) == [[c] + w] + tail;
    JoinCons("-", [c] + w, tail);
    JoinCons("-", w, tail);
    assert s[|s| - 1] == rest[|rest| - 1];
  }

  /** A word of one character: it becomes the first word, ahead of the words of the rest. */
  lemma {:induction false} EndOfWordParts(s: string)
    requires |s| >= 2 && IsWordChar(s[0]) && !IsWordChar(s[1])
    ensures Lead(s) == "" && Lead(s[1..]) == "-"
    ensures Join("-", Words(s)) + Trail(s) == [s[0]] + "-" + Join("-", Words(s[1..])) + Trail(s[1..])
  {
    var c := s[0];
    var rest := s[1..];
    var ws := Words(rest);
    var j := Join("-", ws);
    assert WordRun(s) == [c];
    assert Words(s) == [[c]] + ws;
    JoinCons("-", [c], ws);
    assert s[|s| - 1] == rest[|rest| - 1];
    if ws == [] {
      WordsEmpty(rest);
      assert !IsWordChar(rest[|rest| - 1]);
      assert Trail(s) == "-" && Trail(rest) == "" && j == "";
    } else {
      assert Trail(s) == Trail(rest);
    }
  }

  /** A hyphen-joined list of words starts and ends with a word character. */
  lemma {:induction false} JoinWordsEnds(ws: seq<string>)
    requires ws != [] && forall i :: 0 <= i < |ws| ==> IsWord(ws[i])
    ensures var j := Join("-", ws); j != [] && IsWordChar(j[0]) && IsWordChar(j[|j| - 1])
    decreases |ws|
  {
    if |ws| > 1 {
      var init := ws[..|ws| - 1];
      JoinWordsEnds(init);
      var j := Join("-", ws);
      assert j == Join("-", init) + "-" + ws[|ws| - 1];
      assert j[0] == Join("-", init)[0];
    }
  }

  /** At most one hyphen on each side of a word-delimited text is all `TrimHyphens` removes. */
  lemma TrimHyphensAround(lead: string, j: string, trail: string)
    requires lead in {"", "-"} && trail in {"", "-"}
    requires j != [] && IsWordChar(j[0]) && IsWordChar(j[|j| - 1])
    ensures TrimHyphens(lead + j + trail) == j
  {
    var x := lead + j + trail;
    if lead == "" && trail == "" {
      assert x == j;
    } else if lead == "-" && trail == "-" {
      assert x[1..|x| - 1] == j;
    } else if lead == "-" {
      assert x[1..] == j;
    } else {
      assert x[0] == j[0] && x[..|x| - 1] == j;
    }
  }

  /** The slug of a title is its lower-cased words joined by single hyphens. */
  lemma {:induction false} SlugifyWords(title: string)
    ensures Slugify(title) == Join("-", Words(Lower(title)))
  {
    var s := Lower(title);
    var ws := Words(s);
    CollapseWords(s);
    var j := Join("-", ws);
    var c := Collapse(s);
    assert c == Lead(s) + j + Trail(s);
    if ws == [] {
      assert c == Lead(s);
    } else {
      WordsAreWords(s);
      JoinWordsEnds(ws);
      TrimHyphensAround(Lead(s), j, Trail(s));
    }
  }
}

=== FILE: text.dfy ===
/** The JavaScript string operations the pipelines rely on, over `seq<char>`.
    Lengths count Unicode scalar values, where JavaScript counts UTF-16 code units. */
module Text {

  /** The code points that `String.prototype.trim` removes: the WhiteSpace and
      LineTerminator productions of section 7.2 and 7.3 of ECMA-262 (Zs spelled out). */
  predicate IsSpace(c: char) {
    || c == '\t' || c == '\n' || c == '\U{000B}' || c == '\U{000C}' || c == '\r' || c == ' '
    || c == '\U{00A0}' || c == '\U{1680}' || ('\U{2000}' <= c <= '\U{200A}')
    || c == '\U{2028}' || c == '\U{2029}' || c == '\U{202F}' || c == '\U{205F}'
    || c == '\U{3000}' || c == '\U{FEFF}'
  }

  predicate AllSpace(s: string) {
    forall k :: 0 <= k < |s| ==> IsSpace(s[k])
  }

  /** Neither end of `s` is white space. */
  predicate IsTrimmed(s: string) {
    s == [] || (!IsSpace(s[0]) && !IsSpace(s[|s| - 1]))
  }

  /** Leading white space removed. */
  function TrimStart(s: string): (r: string)
    ensures |r| <= |s|
    ensures r == [] || !IsSpace(r[0])
  {
    if s != [] && IsSpace(s[0]) then TrimStart(s[1..]) else s
  }

  /** Trailing white space removed. */
  function TrimEnd(s: string): (r: string)
    ensures |r| <= |s|
    ensures r == [] || !IsSpace(r[|r| - 1])
  {
    if s != [] && IsSpace(s[|s| - 1]) then TrimEnd(s[..|s| - 1]) else s
  }

  /** `String.prototype.trim`; its result neither starts nor ends with white space. */
  function Trim(s: string): (r: string)
    ensures IsTrimmed(r) && |r| <= |s|
  {
    var a := TrimStart(s);
    TrimEndSplits(a);
    TrimEnd(a)
  }

  /** `TrimStart` removes a run of white space from the front and nothing else. */
  lemma {:induction false} TrimStartSplits(s: string)
    ensures TrimStart(s) == s[|s| - |TrimStart(s)|..]
    ensures AllSpace(s[..|s| - |TrimStart(s)|])
  {
    if s != [] && IsSpace(s[0]) {
      TrimStartSplits(s[1..]);
      var r := TrimStart(s);
      assert s[..|s| - |r|] == [s[0]] + s[1..][..|s| - 1 - |r|];
    }
  }

  /** `TrimEnd` removes a run of white space from the back and nothing else. */
  lemma {:induction false} TrimEndSplits(s: string)
    ensures TrimEnd(s) == s[..|TrimEnd(s)|]
    ensures AllSpace(s[|TrimEnd(s)|..])
  {
    if s != [] && IsSpace(s[|s| - 1]) {
      var s' := s[..|s| - 1];
      TrimEndSplits(s');
      var r := TrimEnd(s);
      assert s[|r|..] == s'[|r|..] + [s[|s| - 1]];
    }
  }

  /** What trimming removes is white space: `s` is white space, then `Trim(s)`, then white space. */
  lemma {:induction false} TrimSplits(s: string)
    ensures exists i :: (0 <= i <= |s| - |Trim(s)| && Trim(s) == s[i..i + |Trim(s)|]
                         && AllSpace(s[..i]) && AllSpace(s[i + |Trim(s)|..]))
  {
    TrimStartSplits(s);
    var a := TrimStart(s);
    TrimEndSplits(a);
    var b := TrimEnd(a);
    var i := |s| - |a|;
    assert b == s[i..i + |b|];
    assert s[i + |b|..] == a[|b|..];
  }

  /** Trimming an already trimmed string changes nothing, so trimming is idempotent. */
  lemma {:induction false} TrimIdempotent(s: string)
    ensures Trim(Trim(s)) == Trim(s)
  {
    var t := Trim(s);
    assert TrimStart(t) == t;
    assert TrimEnd(t) == t;
  }

  predicate StartsWith(s: string, p: string) {
    |p| <= |s| && s[..|p|] == p
  }

  predicate EndsWith(s: string, p: string) {
    |p| <= |s| && s[|s| - |p|..] == p
  }

  /** `sub` occurs in `s` starting at index `i`. */
  predicate OccursAt(s: string, sub: string, i: int) {
    0 <= i && i + |sub| <= |s| && s[i..i + |sub|] == sub
  }

  /** `String.prototype.includes`, scanning from the left. */
  predicate Contains(s: string, sub: string)
    ensures Contains(s, sub) <==> exists i :: OccursAt(s, sub, i)
  {
    if StartsWith(s, sub) then
      assert OccursAt(s, sub, 0);
      true
    else if |s| <= |sub| then
      assert forall i :: OccursAt(s, sub, i) ==> i == 0;
      false
    else
      var b := Contains(s[1..], sub);
      assert forall i :: OccursAt(s[1..], sub, i) <==> OccursAt(s, sub, i + 1);
      assert forall i :: OccursAt(s, sub, i) ==> i == 0 || OccursAt(s[1..], sub, i - 1);
      b
  }
  /** Text found in either part of a concatenation is found in the whole. */
  lemma ContainsInAppend(a: string, b: string, sub: string)
    requires Contains(a, sub) || Contains(b, sub)
    ensures Contains(a + b, sub)
  {
    if Contains(a, sub) {
      var i :| OccursAt(a, sub, i);
      assert (a + b)[i..i + |sub|] == a[i..i + |sub|];
      assert OccursAt(a + b, sub, i);
    } else {
      var i :| OccursAt(b, sub, i);
      assert (a + b)[|a| + i..|a| + i + |sub|] == b[i..i + |sub|];
      assert OccursAt(a + b, sub, |a| + i);
    }
  }


  predicate IsUpper(c: char) {
    'A' <= c <= 'Z'
  }

  /** `toLowerCase` on the ASCII range; every other character is kept. */
  function LowerChar(c: char): char {
    if IsUpper(c) then (c as int + 32) as char else c
  }

  function Lower(s: string): (r: string)
    ensures |r| == |s|
    ensures forall k :: 0 <= k < |s| ==> r[k] == LowerChar(s[k])
  {
    seq(|s|, k requires 0 <= k < |s| => LowerChar(s[k]))
  }

  predicate IsDigit(c: char) {
    '0' <= c <= '9'
  }

  predicate AllDigits(s: string) {
    forall k :: 0 <= k < |s| ==> IsDigit(s[k])
  }

  function DigitChar(d: nat): (c: char)
    requires d < 10
    ensures IsDigit(c)
  {
    ('0' as int + d) as char
  }

  function DigitValue(c: char): (d: nat)
    requires IsDigit(c)
    ensures d < 10
  {
    c as int - '0' as int
  }

  /** The decimal text of `n`, as template interpolation and `Date.now()` print it. */
  function NatToString(n: nat): (r: string)
    ensures r != [] && AllDigits(r)
  {
    if n < 10 then [DigitChar(n)] else NatToString(n / 10) + [DigitChar(n % 10)]
  }

  /** The value of a string of decimal digits, as `parseInt` reads one. */
  function ParseDecimal(s: string): (n: nat)
    requires AllDigits(s)
  {
    if s == [] then 0 else ParseDecimal(s[..|s| - 1]) * 10 + DigitValue(s[|s| - 1])
  }

  /** Reading back the decimal text of `n` gives `n`. */
  lemma {:induction false} ParseNatToString(n: nat)
    ensures ParseDecimal(NatToString(n)) == n
  {
    var s := NatToString(n);
    if n < 10 {
      assert s[..0] == [];
    } else {
      var h := NatToString(n / 10);
      assert s[..|s| - 1] == h;
      ParseNatToString(n / 10);
    }
  }

  /** `parts.join(sep)`. */
  function Join(sep: string, parts: seq<string>): (r: string)
    ensures parts == [] ==> r == []
    ensures |parts| == 1 ==> r == parts[0]
  {
    if parts == [] then []
    else if |parts| == 1 then parts[0]
    else Join(sep, parts[..|parts| - 1]) + sep + parts[|parts| - 1]
  }

  /** Joining a list whose first part is `a`: `a`, then the separator and the rest when there is any. */
  lemma {:induction false} JoinCons(sep: string, a: string, parts: seq<string>)
    ensures Join(sep, [a] + parts) == a + (if parts == [] then [] else sep + Join(sep, parts))
    decreases |parts|
  {
    if parts != [] {
      var init := parts[..|parts| - 1];
      assert ([a] + parts)[..|parts|] == [a] + init;
      assert ([a] + parts)[|parts|] == parts[|parts| - 1];
      JoinCons(sep, a, init);
      if init == [] {
        assert parts == [parts[0]];
      }
    }
  }
}

=== FILE: wrappers.dfy ===
/** Failure-carrying result types shared by every stage of the pipelines. */
module Wrappers {

  /** A value that may be absent: a missing DOM node, a failed fetch, a null extraction. */
  datatype Option<+T> = None | Some(value: T) {
    function GetOr(default: T): T {
      match this
      case Some(v) => v
      case None => default
    }
  }

  /** Either a value or the message of the error that was thrown instead. */
  datatype Result<+R, +E> = Success(value: R) | Failure(error: E)
}
